=== FILE: README.md ===
# Swoosh navigation core in Dafny

Swoosh gives a web site navigation without page reloads: it catches clicks on
navigation links and pushes a History.js state. On every state change that asks
for content it fetches the new page and copies the page's content element into
the current one. The repository ships two versions of the same object:

- `jquery.swoosh.js`, built on jQuery. It can fade the old content out and the
  new content in.
- `swoosh.js`, a plain-DOM rewrite without fading.

This project models the core of both versions as pure Dafny functions over
immutable values:

- **Option handling** (`JsValues`, `Merge`, `Options`):
  - the JavaScript values options can hold, with truthiness and string
    conversion;
  - the deep `_extend` merge of swoosh.js and jQuery's shallow `$.extend`;
  - the defaults of each version;
  - the checks `init` makes, in order;
  - the composition of the link selector when internal links are swooshed.
- **Class-token test** (`ClassTokens`): `_hasClass`, with `indexOf` written
  out. It is proved equal to a whole-token test and, for ordinary class names,
  to membership in `className.split(" ")`.
- **Content replacement** (`Dom`):
  - the attribute snapshot pushed with each state;
  - `replaceContent`, both as the source's loop and as a function;
  - what the target shows afterwards, and that replacing twice equals
    replacing once.
- **Clicks** (`Clicks`):
  - the click filter of each version;
  - the chance a caller has to veto a click by stopping `swoosh/click`;
  - the temporary title;
  - the History.js push payload.
- **Navigation state machines** (`Navigator` for swoosh.js, `JQueryNavigator`
  for jquery.swoosh.js). The environment delivers events:
  - state changes;
  - request callbacks;
  - the end of an animation;
  - the fade-in timer.

  Each handler returns the next instance state and the custom events
  (`swoosh/...`) it triggers, in order.
  - Every request is numbered, and a request can call back only while it is
    live: issued, not aborted and not finished.
  - A handler that throws in the source keeps what it changed before the throw
    and skips the rest.
  - The proved invariants say that at most one request is in flight and that it
    is the latest one issued.
  - The jQuery machine also keeps the fade bookkeeping consistent.
- **Scenarios** (`Scenarios`): whole navigations from the click to the replaced
  content, in both versions. The state History.js delivers after a push is
  taken to be the pushed one.

Where the code behaves differently from what its comments suggest, the model
follows the code:

- The request handle is not cleared when a request fails. Only a successful
  response clears it.
- swoosh.js tests the clicked element itself against the link selector, not an
  enclosing link. A click on an element inside a link is therefore not
  swooshed.
- jquery.swoosh.js matches the enclosing link but reads the pushed `href` from
  the clicked element.
- jquery.swoosh.js never honours the `no-swoosh` class. Its test
  `$(this).is('.no-swoosh')` runs on `this`, which is the Swoosh object the
  listener was bound to, not the link, so it is always false.
- In swoosh.js a nested option under a key whose default is a truthy
  primitive, such as `{linkSelector: {a: {b: 1}}}`, makes `_extend` throw a
  `TypeError` out of `init`. The write into the string is ignored, and the
  recursion then reads a property of `undefined`.
- jquery.swoosh.js `init` never returns `false`. Its two `return false` lines
  follow a call to `$.error`, which throws an `Error` with the message.
- In swoosh.js an explicit `null` option keeps a truthy default and turns a
  falsy one, such as `baseUrl`, into `{}`. So `baseUrl: null` with internal
  links passes the `baseUrl` check, and the resulting selector looks for
  `[object Object]`.
- In jquery.swoosh.js an explicit `null` link selector becomes the text `null`
  in front of the internal-link selector.
- In jquery.swoosh.js a fade-in timer left over from an earlier navigation
  stops the fade-out of a newer one. The fetch of the newer page, issued only
  when that fade-out completes, then never happens.

## Model

| member | source | states |
|---|---|---|
| Merge.Extend | swoosh.js:396-406 | An override without properties leaves the target as it is, and one with properties throws on an `undefined` or `null` target. On another primitive target it throws exactly when some override value is an object with properties of its own; otherwise the target stays. On an object target it throws exactly when one key's merge throws. Otherwise the result has the keys of both sides, keys the override lacks keep their value, a non-object override value overwrites, and an object-typed one is deep-merged into the target's value for that key. |
| Merge.ExtendKey | swoosh.js:398-403 | One property: a non-object override is stored. An object-typed one (including `null`) over a falsy value is merged into a fresh `{}`: exactly the override's keys, never a throw, and `{}` itself for `null`. Over a truthy primitive it is kept, and the merge throws exactly when the override has a nested object with properties. Over an existing object the result has both key sets and keeps the keys the override lacks. |
| Merge.NullOverrideBecomesEmptyObject | swoosh.js:398-400 | Merging `{key: null}` into an object changes only that key: it keeps a truthy value and turns a falsy one into `{}`, so `null` is never stored. |
| Merge.NestedOverPrimitiveThrows | swoosh.js:398-400 | A nested object with properties under a key whose value is a truthy primitive makes the merge throw. |
| Merge.ExtendIntoEmptyCopies | swoosh.js:396-406 | Merging a `null`-free object into `{}` yields the object itself (a deep copy). |
| Merge.ExtendIdempotent | swoosh.js:396-406 | When a merge does not throw, merging the same override into its result again neither throws nor changes anything. |
| Merge.FlatExtendIsOverwrite | swoosh.js:401-403 | With no object-typed override values, the merge is the plain union with the override winning. |
| Merge.ShallowExtend | jquery.swoosh.js:159 | jQuery's shallow extend: it adds exactly the source keys whose value is not `undefined`, each with the source's value, and leaves every other key as it was. |
| Merge.JQueryMerge | jquery.swoosh.js:159 | The merged options hold exactly the keys that defaults or options give a value other than `undefined`, and the caller's value wins. |
| Merge.JQueryMergeOption | jquery.swoosh.js:159 | Each merged option is the caller's value unless that is `undefined`, in which case it is the default. |
| ClassTokens.IndexOfFrom | swoosh.js:442 | `indexOf` from a position: the first occurrence at or after it, or -1 exactly when there is none. |
| ClassTokens.IndexOf | swoosh.js:442 | `indexOf`: -1 exactly when the pattern never occurs, otherwise the first occurrence. |
| ClassTokens.PaddedOccurrence | swoosh.js:442 | The padded pattern occurs at `i` in the padded class name exactly when the token occurs at `i` bounded by spaces or string ends. |
| ClassTokens.PaddedSearchIffDelimited | swoosh.js:442 | The padded `indexOf` search finds something exactly when the token occurs as a whole space-delimited token. |
| ClassTokens.HasClass | swoosh.js:441-443 | `_hasClass` holds exactly when the class name occurs in `className` as a whole space-delimited token. |
| ClassTokens.DelimitedIffInSplit | swoosh.js:441-443 | For a non-empty token without spaces, a whole-token occurrence exists exactly when the token is an element of `split(" ")`. |
| ClassTokens.HasClassIffInClassList | swoosh.js:441-443 | For such a token, `_hasClass` is exactly membership in `className.split(" ")`. |
| ClassTokens.EmptyTokenFoundInEmptyClassName | swoosh.js:442 | The padded search is not a token test for every argument: the empty class is "found" in an empty `className`. |
| Dom.SetAttribute | swoosh.js:376 | `setAttribute` changes the one named attribute to the value and leaves every other attribute and the inner HTML alone. |
| Dom.SpecifiedAttributes | swoosh.js:244-248 | The snapshot holds exactly the names of the element's specified attributes, each with that attribute's value. |
| Dom.SnapshotAttributes | swoosh.js:241-248 | The attribute loop of `handleLinkClick` collects exactly the specified attributes, each with the value `getAttribute` returns. |
| Dom.Replaced | swoosh.js:369-381 | After replacement the inner HTML is the source's, and the attribute names are the target's plus the source's specified ones. |
| Dom.ReplaceContent | swoosh.js:369-381 | The `setAttribute` loop followed by the `innerHTML` assignment ends in exactly the state `Dom.Replaced` describes. |
| Dom.ReplacedAttributes | swoosh.js:372-380 | Afterwards every specified source attribute reads as the source's value. Every other name reads as before, absent or not, and the inner HTML is the source's. |
| Dom.ReplacedIdempotent | jquery.swoosh.js:434-445 | Replacing with the same content twice gives the same element as replacing once. |
| Options.InternalLinkSelector | swoosh.js:163-167 | For a string selector: the old selector, then `", "` only when it was non-empty, then `a[href*="<baseUrl>"]`. |
| Options.WithInternalLinks | jquery.swoosh.js:176-178 | Only `linkSelector` changes, and only when internal links are on; it becomes the extended selector. |
| Options.InitJQuery | jquery.swoosh.js:156-178 | Never returns `false`. A missing History object throws a `TypeError`. `$.error` throws an `Error` exactly when the adapter is missing or internal links lack a truthy `baseUrl`, with the reason in check order. Otherwise the merged options with the selector extension are kept. |
| Options.InitSwoosh | swoosh.js:141-167 | A `TypeError` is thrown exactly when the merge throws. Otherwise none of the three checks throws. `false` is returned exactly when History is missing, the adapter is missing, or internal links lack a truthy `baseUrl`, and the first failing check is reported. Otherwise the merged options with the selector extension are kept. |
| Options.SwooshMergeOption | swoosh.js:144 | With flat options, each merged option is the caller's value when the key is given (even `undefined`), and the default otherwise. |
| Options.SwooshNullBaseUrlMerged | swoosh.js:144 | Merging `{swooshInternalLinks: true, baseUrl: null}` into the defaults gives `baseUrl: {}`, keeps `#nav a` and turns internal links on. |
| Options.InitSwooshLinkSelector | swoosh.js:162-167 | Init succeeds. With internal links the selector is extended (`", "` only after a non-empty selector); without them it is the given one. |
| Options.InitJQueryLinkSelector | jquery.swoosh.js:175-178 | The same for the jQuery version. |
| Options.InitAccepts | jquery.swoosh.js:161-178 | When History and its adapter exist and the `baseUrl` check passes, both versions initialise with the merged options, extended. |
| Options.SettingsOf | jquery.swoosh.js:374-377 | The handlers replace content exactly when `autoreplaceContent` is truthy. They fade exactly in the jQuery version when `fadeContentSwitch` is truthy. |
| Options.InitSwooshSettings | swoosh.js:162-167 | After a successful init with internal links, the swoosh.js handlers match clicks against the extended selector, and nothing fades. |
| Options.JQueryFadesByDefault | jquery.swoosh.js:156-178 | When the caller sets neither `autoreplaceContent` nor `fadeContentSwitch`, init succeeds and the jQuery handlers replace content with fading. |
| Options.JQueryNullLinkSelector | jquery.swoosh.js:159-178 | An explicit `null` selector with internal links yields the selector `null` followed by `a[href*="<baseUrl>"]`. |
| Options.DefaultsAgree | swoosh.js:82-109 | Every option swoosh.js defines is also a jquery.swoosh.js option, with the same default value. |
| Options.SwooshNullBaseUrlAccepted | swoosh.js:144-166 | `{swooshInternalLinks: true, baseUrl: null}` passes the `baseUrl` check, and the selector becomes `#nav a, a[href*="[object Object]"]`. |
| Options.SwooshNestedOptionThrows | swoosh.js:141-145 | With options such as `{linkSelector: {a: {b: 1}}}`, nested under a non-empty string default, `init` throws a `TypeError` before any check. |
| Clicks.OnDocClick | swoosh.js:203-223 | A click leads to `swoosh/click` exactly when there is a target, it lacks the `no-swoosh` class token and it matches the link selector; the event goes to the target itself. |
| Clicks.TempTitle | swoosh.js:254-256 | The temporary title is the named attribute of the link when the option is truthy and the attribute is a non-empty string, and the document title otherwise. |
| Clicks.HandleLinkClick | swoosh.js:236-266 | The push asks for a fetch, carries exactly the link's specified attributes with their values, has the temporary title, and uses the link's `href` as URL. |
| Clicks.HandleLinkClickJQuery | jquery.swoosh.js:239-269 | The push carries only `shouldFetchContent: true`, has the temporary title, and uses the link's `href`. |
| Clicks.Click | swoosh.js:203-266 | A history entry is pushed exactly when the click filter passes and no listener stopped `swoosh/click`; the push is the one `handleLinkClick` builds. |
| Clicks.ClickPushesIff | swoosh.js:206-222 | Spelled out: pushed exactly for a present, matching, non-opted-out and unvetoed target, with a fetch request for the target's `href`. |
| Clicks.OnLinkClickJQuery | jquery.swoosh.js:211-227 | `swoosh/click` is triggered exactly when a click lies inside a link matching the selector, whatever the link's classes, and it goes to the original target. |
| Clicks.ClickJQuery | jquery.swoosh.js:211-268 | A history entry is pushed exactly when the click lies inside a matching link and nobody vetoed; the payload is read from the target. |
| Clicks.JQueryClickInsideLinkPushesNoUrl | jquery.swoosh.js:240-267 | A click on an element without `href` inside any matching link is still swooshed, but the push has no URL. |
| Clicks.OptOutOnlyInPlainVersion | jquery.swoosh.js:213-215 | A matching link with the `no-swoosh` class is left to the browser by swoosh.js. jquery.swoosh.js swooshes it, pushing its `href`. |
| Clicks.TempTitleNeverBlank | swoosh.js:254-256 | On a page with a title, the temporary title is never empty. |
| Clicks.PushedTitleSource | swoosh.js:236-266 | With the option off, a push always carries the document title. Any other pushed title is the non-empty value of the link attribute the option names. When the pushed attribute snapshot holds a non-empty value under that name, that value is the title. |
| Navigator.FetchPageContent | swoosh.js:293-315 | `swoosh/willfetch` is triggered, the page is busy, the old request falls silent, and a new request for the URL becomes the only new live one. |
| Navigator.OnStateChange | swoosh.js:273-286 | `swoosh/statechange` always comes first. Without `shouldFetchContent` nothing else happens; with it, exactly one request for the state's URL starts. |
| Navigator.OnDidFetchContent | swoosh.js:322-362 | Nothing happens unless `readyState` is 4 with a document. Then: `swoosh/didfetch`, the handle cleared, the fetched title set; with auto-replace, content replaced and `swoosh/didreplace`; the busy mark cleared unless a missing content element threw, in which case `swoosh/didfetch` is the only event. |
| Navigator.OnRequestError | swoosh.js:307-309 | A network error triggers `swoosh/errorfetch` and ends the request, keeping the handle and the busy mark. |
| Navigator.StepGuards | swoosh.js:293-315 | A callback of a request that was aborted or has finished changes nothing. No event revives an ended request or lowers the request count. |
| Navigator.InitialValid | swoosh.js:124 | The instance starts with no request, which satisfies the single-flight invariant. |
| Navigator.StepPreservesValid | swoosh.js:301-305 | After any event, only the request in `this.xhr` can call back, and it is the latest issued. |
| Navigator.RunPreservesValid | swoosh.js:273-362 | The invariant holds after any sequence of events. |
| Navigator.SupersededRequestIgnored | swoosh.js:301-305 | After a new fetch, every callback of the request it replaced changes nothing and triggers nothing. |
| Navigator.StateChangeFetchesIff | swoosh.js:283-285 | A state change issues a request exactly when it asks for content. That request is then the only live one, for the state's URL; otherwise the state is untouched. |
| Navigator.OnlyLatestRequestChangesPage | swoosh.js:327-355 | Only a `readyState` callback of the most recently issued request can change the content or the title. |
| JQueryNavigator.Abort | jquery.swoosh.js:336-337 | Aborting a live request ends it and triggers exactly one `swoosh/errorfetch`. Aborting an ended one triggers nothing, and the handle stays. |
| JQueryNavigator.FetchPageContent | jquery.swoosh.js:329-349 | `swoosh/willfetch` comes first, the page is busy, the old request is aborted, and the new request for the URL is stored with the next number. |
| JQueryNavigator.MaybeFadeInContent | jquery.swoosh.js:402-427 | Without both flags nothing changes. With both, a found element replaces the content and schedules one fade-in, and nothing is thrown. It throws, changing nothing, exactly when both flags are set and the slot is empty or its lookup found nothing. |
| JQueryNavigator.OnStateChange | jquery.swoosh.js:275-322 | `swoosh/statechange` is always triggered first, and a state that asks for no content changes nothing. Otherwise the running request is aborted. In fade mode the switching state is reset and the fade-out for the URL starts, with no fetch yet; without it the request for the URL is issued at once. |
| JQueryNavigator.OnFadeOutDone | jquery.swoosh.js:306-314 | `swoosh/didfadeout` comes first and the content is marked faded out. When nothing is loaded yet, the content is kept and `swoosh/willfetch` follows, with the request for the URL. |
| JQueryNavigator.OnDidFetchContent | jquery.swoosh.js:356-393 | The handle and the busy mark are cleared, the fetched title is set and the request ends. `swoosh/didfetch` comes first, carrying the content element's page name. Without auto-replace, content and switching state stay. Without fading, found content replaces the old content and `swoosh/didreplace` follows with the same page name. With fading, the response goes into the slot, marked loaded, and it is swapped in at once, with one fade-in scheduled, exactly when the old content is already faded out and content was found. |
| JQueryNavigator.OnFadeInTimer | jquery.swoosh.js:409-425 | The fade-in starts and `isFadedOut` is kept. With content in the slot, `swoosh/didreplace` carries its `data-page` and the slot is reset; with an empty slot, nothing more happens. Nothing else in the instance changes. |
| JQueryNavigator.OnFadeInDone | jquery.swoosh.js:412-417 | The content is no longer faded out and `swoosh/didfadein` is triggered. Apart from the animation and that mark, nothing changes. |
| JQueryNavigator.PageName | jquery.swoosh.js:360-361 | The page name is the named attribute of the found content element, and `undefined` when the lookup found nothing. |
| JQueryNavigator.StepGuards | jquery.swoosh.js:306-425 | A callback of an ended request, the end of an animation that is not running, and a timer nobody set change nothing. No event revives an ended request or lowers the request count. |
| JQueryNavigator.InitialValid | jquery.swoosh.js:139-150 | The initial instance satisfies the invariant. |
| JQueryNavigator.StepPreservesValid | jquery.swoosh.js:275-427 | Every event keeps the invariant: only the latest request can call back, loaded content sits in the slot, nothing is loaded or in flight during a fade-out, and nothing fades outside fade mode. |
| JQueryNavigator.RunPreservesValid | jquery.swoosh.js:275-427 | The invariant holds after any sequence of events. |
| JQueryNavigator.NonFetchingStateChangeTouchesNothing | jquery.swoosh.js:281-287 | A state change without `shouldFetchContent` leaves the state unchanged and only triggers `swoosh/statechange`. |
| JQueryNavigator.FetchingStateChange | jquery.swoosh.js:287-320 | In fade mode the switching state is reset, the fade-out starts, nothing is in flight and no request is issued yet. Otherwise the request for the URL is issued at once and is the only live one. |
| JQueryNavigator.FadeOutDoneFetches | jquery.swoosh.js:306-313 | The end of the fade-out marks the content faded out, swaps nothing, and issues the request for the navigation's URL. |
| JQueryNavigator.NewRequestAbortsOld | jquery.swoosh.js:336-340 | Whenever an event issues a request, the previous one is no longer live and the new one is the only live request. |
| JQueryNavigator.SwapNeedsBothFlags | jquery.swoosh.js:402-406 | In fade mode the content changes only when it is both faded out and loaded, and each swap schedules exactly one fade-in. |
| JQueryNavigator.FadedOutClearedOnlyByFadeIn | jquery.swoosh.js:412-417 | `isFadedOut` is cleared only by the end of the fade-in or by a new navigation's reset. |
| JQueryNavigator.CompletionOfLiveRequest | jquery.swoosh.js:344-371 | Success clears the handle and the busy mark and sets the title. Failure triggers `swoosh/errorfetch` and changes nothing else. |
| JQueryNavigator.NoFetchWithoutFadeOut | jquery.swoosh.js:297-320 | In fade mode, with no fade-out running and no state change, no event ever issues a request. |
| JQueryNavigator.StaleFadeInTimerDropsFetch | jquery.swoosh.js:409-412 | A fade-in timer left from an earlier navigation stops the new fade-out. Until the next state change the new page is never fetched. |
| JQueryNavigator.RunAppend | jquery.swoosh.js:275-427 | Running two event sequences in turn is running their concatenation. |
| Scenarios.AboutLinkPushes | swoosh.js:236-266 | A click on `<a href="/about" data-title="About">` pushes `/about` with the title "About", a fetch request and the attribute snapshot. |
| Scenarios.AboutResponse | swoosh.js:327-361 | The response with `<title>About Us</title>` and `<div id="content" data-page="about">X</div>` sets the title and the content. It gives the content `data-page="about"` and clears the busy mark. |
| Scenarios.AboutNavigation | swoosh.js:273-362 | The state change followed by that response yields that page, and the four custom events in order. |
| Scenarios.AboutClickNavigation | swoosh.js:203-362 | A click on the About link pushes a state; the state change it causes and the response to the request it issues show the About page with the four custom events in order. |
| Scenarios.FadeOutThenFetch | jquery.swoosh.js:297-313 | In fade mode, a state change and the end of its fade-out leave the content faded out, nothing loaded and the request for the URL in flight. |
| Scenarios.SwapThenFadeIn | jquery.swoosh.js:374-427 | The response is swapped in at once, the timer announces it, and the end of the fade-in leaves the switching state reset. |
| Scenarios.FadingNavigation | jquery.swoosh.js:275-427 | A complete fading navigation replaces the content, sets the title, leaves no request and no busy mark, and triggers the six custom events in order. |
| Scenarios.FadingClickNavigation | jquery.swoosh.js:211-427 | A click inside a matching link pushes the link's `href`, and the fading navigation the state change starts ends with that page faded in, no request in flight and the six custom events in order. |

## Left out

- History.js itself: its state storage, URL normalisation and the `statechange` dispatch. A state change arrives as an event carrying the state's data, title and URL.
- The HTTP transport, response parsing and `ajaxCache`. A response arrives as the fetched page's title and the element the content lookup found. The lookup itself (`contentSelector`, jQuery's `find`/`filter` on the parsed HTML) is not modelled.
- Selector matching: `Element.matches` in swoosh.js and jQuery's delegated matching are inputs.
- Animation timing, `fadeContentDuration`, `fadeContentDelay` and the scroll to the top (`scrollTopDuration`). Only the order of the completion callbacks and timers is modelled; any interleaving is allowed.
- The loading overlay option. Its default is named `addLoadingIndicator` but it is read as `addLoadingOverlay`, and it only appends a DOM element.
- The `Element.matches` and `CustomEvent` polyfills at the end of swoosh.js, `_error` (console/alert output), `_trigger` beyond the order of triggered events, the empty `onContentReplace`, and listener registration in `init`.
- The `$.swoosh` plugin wrapper that creates a single instance.
- The `detail` payloads of `swoosh/statechange`, `swoosh/willfetch` and `swoosh/errorfetch` beyond the state and the URL. The raw `response` passed with the jQuery events is also left out.
- Floating-point numbers, `NaN` and arrays among option values. Numbers are integers, and an object's `length` is read as a number property.
- The order of an element's attributes. Attribute names are unique, so attributes form a map.
- Merge.Extend: a property read on a primitive other than `undefined` and `null` gives `undefined`. In JavaScript a string has its indices and `length`, and every primitive inherits methods such as `toString`. So `{linkSelector: {length: {b: 1}}}` descends into the number 6 in swoosh.js and does not throw, while the model throws.
- Merge.Extend: a string override is treated as contributing no keys. `for (var property in obj2)` at swoosh.js:397 visits a string's indices, so `init("ab")` also stores `"0": "a"` and `"1": "b"` among the options. No part of the model reads those keys.
- Merge.ShallowExtend: a string source is treated as contributing no keys, while jQuery's `$.extend` copies its indices in the same way. `JsValues.Get` likewise reads no index or `length` of a string.
- The content lookup in `init` (`document.querySelector` and `$(contentSelector)`, swoosh.js:170 and jquery.swoosh.js:173). An invalid `contentSelector` makes it throw after the checks; the model returns the initialised options.
- Aliasing of options and defaults in swoosh.js. `_extend(this.defaults, options)` returns the defaults object itself, so the `+=` on `linkSelector` also rewrites the defaults. The model treats the merge result as a fresh value.
- Dom.GetAttribute: does not lower-case the attribute name as `getAttribute` and `.attr` do in HTML documents. A `tempTitleFromAttr` with capitals, such as `data-pageTitle`, finds `data-pagetitle` in the source but nothing in the model.
- Dom.Replaced: jQuery's `.attr(name, value)` at jquery.swoosh.js:440 stores a boolean attribute such as `hidden` with its own name as the value. The model copies the source's value for every attribute.

=== FILE: classtokens.dfy ===
/** swoosh.js `_hasClass(el, className)`: a search for `" " + className + " "`
    inside `" " + el.className + " "` with `String.prototype.indexOf`.
    The module models `indexOf` and proves that the padded search finds
    exactly the whole space-delimited occurrences of the class name, and for an
    ordinary class name (non-empty, no space) exactly the members of the
    space-separated token list. */
module ClassTokens {

  /** `pat` occurs in `s` starting at index `i`. */
  predicate OccursAt(s: string, pat: string, i: int)
  {
    0 <= i && i + |pat| <= |s| && s[i..i + |pat|] == pat
  }

  /** `s.indexOf(pat, from)`: the first index at or after `from` where `pat`
      occurs, or -1. */
  function IndexOfFrom(s: string, pat: string, from: nat): (r: int)
    ensures r == -1 || (from <= r && OccursAt(s, pat, r))
    ensures r == -1 ==> forall i :: from <= i ==> !OccursAt(s, pat, i)
    ensures r != -1 ==> forall i :: from <= i < r ==> !OccursAt(s, pat, i)
    decreases |s| - from
  {
    if from + |pat| > |s| then -1
    else if s[from..from + |pat|] == pat then from
    else IndexOfFrom(s, pat, from + 1)
  }

  /** `s.indexOf(pat)`. */
  function IndexOf(s: string, pat: string): (r: int)
    ensures r == -1 <==> forall i :: !OccursAt(s, pat, i)
    ensures r != -1 ==> OccursAt(s, pat, r) && forall i :: 0 <= i < r ==> !OccursAt(s, pat, i)
  {
    IndexOfFrom(s, pat, 0)
  }


  /** `token` occurs in `className` at `i` bounded on both sides by a space
      or by an end of the string: a whole token. */
  predicate DelimitedAt(className: string, token: string, i: int)
  {
    && OccursAt(className, token, i)
    && (i == 0 || className[i - 1] == ' ')
    && (i + |token| == |className| || className[i + |token|] == ' ')
  }

  /** A padded match at `i` is a whole token starting at `i`. */
  lemma PaddedMatchIsDelimited(className: string, token: string, i: int)
    requires OccursAt(" " + className + " ", " " + token + " ", i)
    ensures DelimitedAt(className, token, i)
  {
    var p := " " + className + " ";
    var q := " " + token + " ";
    var m := p[i..i + |q|];
    assert m == q;
    assert p[i] == m[0] == ' ';
    assert p[i + |token| + 1] == m[|token| + 1] == ' ';
    assert className == p[1..|p| - 1];
    assert token == q[1..|q| - 1] == m[1..|q| - 1];
    var inner, tokenPart := m[1..|q| - 1], p[i + 1..i + 1 + |token|];
    forall k | 0 <= k < |token|
      ensures inner[k] == tokenPart[k]
    {
      assert m[k + 1] == p[i + k + 1];
    }
    assert inner == tokenPart;
    assert className[i..i + |token|] == p[1..|p| - 1][i..i + |token|] == p[i + 1..i + 1 + |token|];
    if i > 0 {
      assert className[i - 1] == p[i];
    }
    if i + |token| < |className| {
      assert className[i + |token|] == p[i + |token| + 1];
    }
  }

  /** A whole token starting at `i` is a padded match at `i`. */
  lemma DelimitedIsPaddedMatch(className: string, token: string, i: int)
    requires DelimitedAt(className, token, i)
    ensures OccursAt(" " + className + " ", " " + token + " ", i)
  {
    var p := " " + className + " ";
    var q := " " + token + " ";
    assert forall k :: 0 <= k < |className| ==> p[k + 1] == className[k];
    assert forall k :: 0 <= k < |token| ==> q[k + 1] == token[k];
    forall k | 0 <= k < |q| ensures p[i..i + |q|][k] == q[k] {
      if 0 < k < |q| - 1 {
        assert className[i..i + |token|][k - 1] == token[k - 1];
      }
    }
    assert p[i..i + |q|] == q;
  }

  /** The padded search matches at `i` exactly where a whole token starts at `i`. */
  lemma PaddedOccurrence(className: string, token: string, i: int)
    ensures OccursAt(" " + className + " ", " " + token + " ", i) <==> DelimitedAt(className, token, i)
  {
    if OccursAt(" " + className + " ", " " + token + " ", i) {
      PaddedMatchIsDelimited(className, token, i);
    }
    if DelimitedAt(className, token, i) {
      DelimitedIsPaddedMatch(className, token, i);
    }
  }

  /** The padded search finds something exactly when the class name occurs
      as a whole space-delimited token. */
  lemma PaddedSearchIffDelimited(className: string, token: string)
    ensures IndexOf(" " + className + " ", " " + token + " ") > -1 <==> exists i :: DelimitedAt(className, token, i)
  {
    var p := " " + className + " ";
    var q := " " + token + " ";
    if IndexOf(p, q) > -1 {
      var i := IndexOf(p, q);
      PaddedOccurrence(className, token, i);
    } else {
      forall i
        ensures !DelimitedAt(className, token, i)
      {
        PaddedOccurrence(className, token, i);
      }
    }
  }

  /** `_hasClass`: the padded `indexOf` search of swoosh.js, which holds
      exactly when the class name occurs as a whole space-delimited token. */
  function HasClass(className: string, token: string): (b: bool)
    ensures b <==> exists i :: DelimitedAt(className, token, i)
  {
    PaddedSearchIffDelimited(className, token);
    IndexOf(" " + className + " ", " " + token + " ") > -1
  }

  /** The index of the first space in `s`, or `|s|` when there is none. */
  function FirstSpace(s: string): (r: nat)
    ensures r <= |s|
    ensures r < |s| ==> s[r] == ' '
    ensures forall i :: 0 <= i < r ==> s[i] != ' '
  {
    if |s| == 0 || s[0] == ' ' then 0 else 1 + FirstSpace(s[1..])
  }

  /** `s.split(" ")`: the pieces between single spaces, empty pieces included. */
  function Split(s: string): (r: seq<string>)
    ensures |r| >= 1
    decreases |s|
  {
    var f := FirstSpace(s);
    if f == |s| then [s] else [s[..f]] + Split(s[f + 1..])
  }

  /** A class name as one would write it in `class="..."`. */
  predicate PlainToken(token: string)
  {
    token != "" && forall i :: 0 <= i < |token| ==> token[i] != ' '
  }

  /** A whole-token occurrence at the start of `className` is the piece
      before the first space. */
  lemma DelimitedAtStart(className: string, token: string)
    requires PlainToken(token)
    ensures DelimitedAt(className, token, 0) <==> token == className[..FirstSpace(className)]
  {
    var f := FirstSpace(className);
    if DelimitedAt(className, token, 0) {
      assert className[..|token|] == token;
    }
  }

  /** A whole-token occurrence after the start lies past the first space,
      at `f`, and is a whole-token occurrence in what follows it. */
  lemma DelimitedLater(className: string, token: string, f: nat, i: int)
    requires f <= |className| && forall k :: 0 <= k < f ==> className[k] != ' '
    requires PlainToken(token) && i > 0
    requires DelimitedAt(className, token, i)
    ensures f < |className| && f <= i - 1
    ensures DelimitedAt(className[f + 1..], token, i - f - 1)
  {
    assert className[i - 1] == ' ';
    var rest := className[f + 1..];
    var j := i - f - 1;
    assert rest[j..j + |token|] == className[i..i + |token|];
    if j > 0 {
      assert rest[j - 1] == className[i - 1];
    }
    if j + |token| < |rest| {
      assert rest[j + |token|] == className[i + |token|];
    }
  }

  /** A whole-token occurrence after a space at `f` is one of `className` too. */
  lemma DelimitedInRest(className: string, token: string, f: nat, j: int)
    requires f < |className| && className[f] == ' '
    requires DelimitedAt(className[f + 1..], token, j)
    ensures DelimitedAt(className, token, f + 1 + j)
  {
    var rest := className[f + 1..];
    assert className[f + 1 + j..f + 1 + j + |token|] == rest[j..j + |token|];
    if j > 0 {
      assert className[f + j] == rest[j - 1];
    }
    if j + |token| < |rest| {
      assert className[f + 1 + j + |token|] == rest[j + |token|];
    }
  }

  /** For an ordinary class name, a whole-token occurrence is one of the
      pieces of the split. */
  lemma {:induction false} DelimitedIffInSplit(className: string, token: string)
    requires PlainToken(token)
    ensures (exists i :: DelimitedAt(className, token, i)) <==> token in Split(className)
    decreases |className|
  {
    var f := FirstSpace(className);
    DelimitedAtStart(className, token);
    if f == |className| {
      assert Split(className) == [className];
      assert className[..f] == className;
      if exists i :: DelimitedAt(className, token, i) {
        var i :| DelimitedAt(className, token, i);
        if i > 0 {
          DelimitedLater(className, token, f, i);
        }
      }
    } else {
      var rest := className[f + 1..];
      assert Split(className) == [className[..f]] + Split(rest);
      DelimitedIffInSplit(rest, token);
      if exists i :: DelimitedAt(className, token, i) {
        var i :| DelimitedAt(className, token, i);
        if i > 0 {
          DelimitedLater(className, token, f, i);
        }
      }
      if token in Split(rest) {
        var j :| DelimitedAt(rest, token, j);
        DelimitedInRest(className, token, f, j);
      }
    }
  }

  /** `_hasClass(el, token)` for an ordinary class name is exactly
      `el.className.split(" ")` containing it. */
  lemma HasClassIffInClassList(className: string, token: string)
    requires PlainToken(token)
    ensures HasClass(className, token) <==> token in Split(className)
  {
    DelimitedIffInSplit(className, token);
  }

  /** The padded search is not a token test for every argument: an empty
      class name is "found" in an empty `className`. */
  lemma EmptyTokenFoundInEmptyClassName()
    ensures HasClass("", "")
  {
    assert DelimitedAt("", "", 0);
  }
}

=== FILE: clicks.dfy ===
/** From a click to a History.js push: the document click filter of
    swoosh.js (`onDocClick`), the caller's chance to veto through the
    `swoosh/click` event, and the push payload built by `handleLinkClick` in
    both versions. Selector matching (`Element.matches`) is a parameter. */
module Clicks {
  import opened Wrappers
  import opened JsValues
  import opened Dom
  import opened Events
  import opened ClassTokens
  import opened Options

  /** The class that exempts a link from Swoosh. */
  const OptOutClass: string := "no-swoosh"

  /** What the document click listener does with a click. */
  datatype ClickOutcome =
    | Ignored                   // returns without doing anything
    | LinkClicked(link: Element) // triggers one `swoosh/click` on the target

  /** The arguments of `History.pushState(data, title, url)`. */
  datatype Push = Push(data: StateData, title: string, url: Option<string>)

  /** What becomes of a click as a whole: the browser follows the link, or
      Swoosh prevents that and pushes a history entry. */
  datatype ClickEffect = BrowserDefault | Pushed(push: Push)

  /** swoosh.js `onDocClick(e)`: ignore a click without a target, on an
      element with the opt-out class, or on one that does not match the link
      selector; otherwise trigger `swoosh/click` on the target itself (not on
      an enclosing link). */
  function OnDocClick(target: Option<Element>, linkSelector: string, matches: (Element, string) -> bool): (r: ClickOutcome)
    ensures r.LinkClicked? <==>
      && target.Some?
      && OptOutClass !in Split(ClassName(target.value))
      && matches(target.value, linkSelector)
    ensures r.LinkClicked? ==> r.link == target.value
  {
    if target.None? then Ignored
    else
      HasClassIffInClassList(ClassName(target.value), OptOutClass);
      if HasClass(ClassName(target.value), OptOutClass) then Ignored
      else if !matches(target.value, linkSelector) then Ignored
      else LinkClicked(target.value)
  }

  /** The temporary title of both versions: the link's attribute named by
      `tempTitleFromAttr` when that option is truthy and the attribute is a
      non-empty string, the current document title otherwise. */
  function TempTitle(tempTitleFromAttr: Value, link: Element, documentTitle: string): (r: string)
    ensures
      (Truthy(tempTitleFromAttr) && GetAttribute(link, ToStr(tempTitleFromAttr)).GetOr("") != "")
      ==> r == GetAttribute(link, ToStr(tempTitleFromAttr)).value
    ensures
      !(Truthy(tempTitleFromAttr) && GetAttribute(link, ToStr(tempTitleFromAttr)).GetOr("") != "")
      ==> r == documentTitle
  {
    if Truthy(tempTitleFromAttr) then
      match GetAttribute(link, ToStr(tempTitleFromAttr))
      case Some(t) => if t != "" then t else documentTitle
      case None => documentTitle
    else
      documentTitle
  }

  /** swoosh.js `handleLinkClick`: push a state carrying the snapshot of the
      link's specified attributes and `shouldFetchContent`, with the temporary
      title and the link's `href`. */
  function HandleLinkClick(settings: Settings, link: Element, documentTitle: string): (p: Push)
    ensures p.data.shouldFetchContent
    ensures p.data.linkAttr.Some?
    ensures forall n :: n in p.data.linkAttr.value <==> n in link.attributes && link.attributes[n].specified
    ensures forall n :: n in p.data.linkAttr.value ==> Some(p.data.linkAttr.value[n]) == GetAttribute(link, n)
    ensures p.title == TempTitle(settings.tempTitleFromAttr, link, documentTitle)
    ensures p.url == GetAttribute(link, "href")
  {
    Push(StateData(true, Some(SpecifiedAttributes(link))),
         TempTitle(settings.tempTitleFromAttr, link, documentTitle),
         GetAttribute(link, "href"))
  }

  /** jquery.swoosh.js `handleLinkClick`: the same push without the
      attribute snapshot. */
  function HandleLinkClickJQuery(settings: Settings, link: Element, documentTitle: string): (p: Push)
    ensures p.data == StateData(true, None)
    ensures p.title == TempTitle(settings.tempTitleFromAttr, link, documentTitle)
    ensures p.url == GetAttribute(link, "href")
  {
    Push(StateData(true, None),
         TempTitle(settings.tempTitleFromAttr, link, documentTitle),
         GetAttribute(link, "href"))
  }

  /** A click in swoosh.js from start to end. `vetoed` says whether a
      listener on the link stopped the propagation of `swoosh/click`, so that
      it never reaches the document listener: then nothing is prevented and
      the browser follows the link. */
  function Click(settings: Settings, target: Option<Element>, vetoed: bool, documentTitle: string,
                 matches: (Element, string) -> bool): (r: ClickEffect)
    ensures r.Pushed? <==>
      && OnDocClick(target, settings.linkSelector, matches).LinkClicked?
      && !vetoed
    ensures r.Pushed? ==> r.push == HandleLinkClick(settings, target.value, documentTitle)
  {
    match OnDocClick(target, settings.linkSelector, matches)
    case Ignored => BrowserDefault
    case LinkClicked(link) =>
      if vetoed then BrowserDefault else Pushed(HandleLinkClick(settings, link, documentTitle))
  }

  /** Exactly the clicks on a matching, non-opted-out target that nobody
      vetoed push a history entry, and that entry asks for the link's `href`
      to be fetched. */
  lemma ClickPushesIff(settings: Settings, target: Option<Element>, vetoed: bool, documentTitle: string,
                       matches: (Element, string) -> bool)
    ensures var r := Click(settings, target, vetoed, documentTitle, matches);
      && (r.Pushed? <==>
           target.Some? && !vetoed && matches(target.value, settings.linkSelector)
           && OptOutClass !in Split(ClassName(target.value)))
      && (r.Pushed? ==> r.push.data.shouldFetchContent && r.push.url == GetAttribute(target.value, "href"))
  {
  }

  /** jquery.swoosh.js `onLinkClick(e)`, a delegated listener: jQuery calls
      it only for a click inside an element matching the link selector, and
      `link` is that element (`None` when there is none). The opt-out test
      `$(this).is('.no-swoosh')` looks at `this`, which `bind` made the
      Swoosh object rather than the link; `is` only ever matches elements, so
      the test never holds and no link is exempt. `swoosh/click` is triggered
      on the original target, which may be an element inside the link. */
  function OnLinkClickJQuery(link: Option<Element>, target: Element): (r: ClickOutcome)
    ensures r.LinkClicked? <==> link.Some?
    ensures r.LinkClicked? ==> r.link == target
  {
    match link
    case None => Ignored
    case Some(_) => LinkClicked(target)
  }

  /** A click in jquery.swoosh.js from start to end: the push payload is read
      from the click's target, not from the matched link. */
  function ClickJQuery(settings: Settings, link: Option<Element>, target: Element, vetoed: bool,
                       documentTitle: string): (r: ClickEffect)
    ensures r.Pushed? <==> OnLinkClickJQuery(link, target).LinkClicked? && !vetoed
    ensures r.Pushed? ==> r.push == HandleLinkClickJQuery(settings, target, documentTitle)
  {
    match OnLinkClickJQuery(link, target)
    case Ignored => BrowserDefault
    case LinkClicked(t) =>
      if vetoed then BrowserDefault else Pushed(HandleLinkClickJQuery(settings, t, documentTitle))
  }

  /** In jquery.swoosh.js a click on an element inside a link (an image in
      an anchor, say) is swooshed, but the pushed URL is the target's `href`:
      absent, so History.js is asked to push no URL at all. */
  lemma JQueryClickInsideLinkPushesNoUrl(settings: Settings, link: Element, target: Element, documentTitle: string)
    requires "href" !in target.attributes
    ensures var r := ClickJQuery(settings, Some(link), target, false, documentTitle);
      r.Pushed? && r.push.url.None? && r.push.data.shouldFetchContent
  {
  }

  /** The `no-swoosh` class exempts a link only in swoosh.js: a matching link
      carrying it is left to the browser there, and swooshed by
      jquery.swoosh.js. */
  lemma OptOutOnlyInPlainVersion(settings: Settings, link: Element, documentTitle: string,
                                 matches: (Element, string) -> bool)
    requires OptOutClass in Split(ClassName(link))
    requires matches(link, settings.linkSelector)
    ensures Click(settings, Some(link), false, documentTitle, matches) == BrowserDefault
    ensures var r := ClickJQuery(settings, Some(link), link, false, documentTitle);
      r.Pushed? && r.push.url == GetAttribute(link, "href")
  {
  }

  /** A page with a title never gets a blank temporary title: the attribute
      is used only when it is non-empty. */
  lemma TempTitleNeverBlank(tempTitleFromAttr: Value, link: Element, documentTitle: string)
    requires documentTitle != ""
    ensures TempTitle(tempTitleFromAttr, link, documentTitle) != ""
  {
  }

  /** Where the title of a swoosh.js push comes from: with the option off it
      is always the document title; any other title is the non-empty value
      of the link's attribute the option names; and whenever the pushed
      attribute snapshot holds a non-empty value under that name, that value
      is the title. */
  lemma PushedTitleSource(settings: Settings, link: Element, documentTitle: string)
    ensures var p := HandleLinkClick(settings, link, documentTitle);
      var name := ToStr(settings.tempTitleFromAttr);
      && (!Truthy(settings.tempTitleFromAttr) ==> p.title == documentTitle)
      && (p.title != documentTitle ==>
            name in link.attributes && p.title == link.attributes[name].value && p.title != "")
      && (Truthy(settings.tempTitleFromAttr) && name in p.data.linkAttr.value && p.data.linkAttr.value[name] != "" ==>
            p.title == p.data.linkAttr.value[name])
  {
  }
}

=== FILE: dom.dfy ===
/** The part of the DOM the core touches: an element's attributes and its
    inner HTML. Attribute names in an element are unique, so the attribute
    list is a map from name to value and `specified` flag (the flag both
    copy loops of the source test); the order of the list is not modelled.
    Selector matching and querying are not modelled here: callers receive
    their results as inputs. */
module Dom {
  import opened Wrappers

  datatype Attr = Attr(value: string, specified: bool)

  datatype Element = Element(attributes: map<string, Attr>, innerHtml: string)

  /** `el.getAttribute(name)` (`$el.attr(name)` in the jQuery version):
      the value, or `null` (`undefined`) when there is no such attribute. */
  function GetAttribute(e: Element, name: string): (r: Option<string>)
    ensures r.Some? <==> name in e.attributes
    ensures r.Some? ==> r.value == e.attributes[name].value
  {
    if name in e.attributes then Some(e.attributes[name].value) else None
  }

  /** `el.className`: the `class` attribute, or `""` when there is none. */
  function ClassName(e: Element): string
  {
    GetAttribute(e, "class").GetOr("")
  }

  /** `el.setAttribute(name, value)`: adds or overwrites one attribute, which
      is then specified. */
  function SetAttribute(e: Element, name: string, value: string): (r: Element)
    ensures GetAttribute(r, name) == Some(value)
    ensures forall n :: n != name ==> GetAttribute(r, n) == GetAttribute(e, n)
    ensures r.innerHtml == e.innerHtml
  {
    e.(attributes := e.attributes[name := Attr(value, true)])
  }

  /** The name-to-value map of the attributes whose `specified` flag is set:
      what the `for (var i in el.attributes) if (attr.specified) ...` loops
      of the source visit. */
  function SpecifiedAttributes(e: Element): (m: map<string, string>)
    ensures forall n :: n in m <==> n in e.attributes && e.attributes[n].specified
    ensures forall n :: n in m ==> m[n] == e.attributes[n].value
  {
    map n | n in e.attributes && e.attributes[n].specified :: e.attributes[n].value
  }

  /** The snapshot loop of swoosh.js `handleLinkClick`: each specified
      attribute of the link, name to value (History.js cannot carry DOM
      nodes, so the push payload carries this map). */
  method SnapshotAttributes(link: Element) returns (linkAttr: map<string, string>)
    ensures forall n :: n in linkAttr <==> n in link.attributes && link.attributes[n].specified
    ensures forall n :: n in linkAttr ==> Some(linkAttr[n]) == GetAttribute(link, n)
    ensures linkAttr == SpecifiedAttributes(link)
  {
    linkAttr := map[];
    var todo := link.attributes.Keys;
    while todo != {}
      invariant todo <= link.attributes.Keys
      invariant forall n :: n in linkAttr <==> n in link.attributes && n !in todo && link.attributes[n].specified
      invariant forall n :: n in linkAttr ==> linkAttr[n] == link.attributes[n].value
      decreases todo
    {
      var n :| n in todo;
      if link.attributes[n].specified {
        linkAttr := linkAttr[n := link.attributes[n].value];
      }
      todo := todo - {n};
    }
  }

  /** The attributes `replaceContent` sets on the target for the source
      attributes named in `names`: the specified ones, as specified. */
  function Copied(source: Element, names: set<string>): (m: map<string, Attr>)
    ensures forall n :: n in m <==> n in names && n in source.attributes && source.attributes[n].specified
  {
    map n | n in names && n in source.attributes && source.attributes[n].specified :: Attr(source.attributes[n].value, true)
  }

  /** What `replaceContent(source, target)` leaves in `target`: every
      specified attribute of `source` set on it (added or overwritten, never
      removed) and its inner HTML replaced by that of `source`. */
  function Replaced(source: Element, target: Element): (r: Element)
    ensures r.innerHtml == source.innerHtml
    ensures r.attributes.Keys == target.attributes.Keys + SpecifiedAttributes(source).Keys
  {
    Element(target.attributes + Copied(source, source.attributes.Keys), source.innerHtml)
  }

  /** Visiting one more source attribute sets it if it is specified. */
  lemma CopiedOneMore(source: Element, target: Element, done: set<string>, n: string)
    requires n in source.attributes && n !in done
    ensures var before := target.attributes + Copied(source, done);
      target.attributes + Copied(source, done + {n}) ==
        if source.attributes[n].specified then before[n := Attr(source.attributes[n].value, true)] else before
  {
  }

  /** `replaceContent` as the source writes it: one `setAttribute` per
      specified attribute of the new content wrap, then the `innerHTML`
      assignment. */
  method ReplaceContent(source: Element, target: Element) returns (result: Element)
    ensures result == Replaced(source, target)
  {
    result := target;
    var todo := source.attributes.Keys;
    while todo != {}
      invariant todo <= source.attributes.Keys
      invariant result.innerHtml == target.innerHtml
      invariant result.attributes == target.attributes + Copied(source, source.attributes.Keys - todo)
      decreases todo
    {
      var n :| n in todo;
      var done := source.attributes.Keys - todo;
      CopiedOneMore(source, target, done, n);
      if source.attributes[n].specified {
        result := result.(attributes := result.attributes[n := Attr(source.attributes[n].value, true)]);  // setAttribute
      }
      todo := todo - {n};
      assert source.attributes.Keys - todo == done + {n};
    }
    result := result.(innerHtml := source.innerHtml);
  }

  /** What the target shows afterwards through `getAttribute`: the source's
      value for every specified source attribute, its own value (or absence)
      for every other name; the inner HTML is the source's. */
  lemma ReplacedAttributes(source: Element, target: Element, name: string)
    ensures GetAttribute(Replaced(source, target), name) ==
      (if name in SpecifiedAttributes(source) then Some(source.attributes[name].value)
       else GetAttribute(target, name))
    ensures Replaced(source, target).innerHtml == source.innerHtml
  {
  }

  /** Replacing with the same content twice leaves the target as replacing once. */
  lemma ReplacedIdempotent(source: Element, target: Element)
    ensures Replaced(source, Replaced(source, target)) == Replaced(source, target)
  {
    var once := Replaced(source, target);
    var twice := Replaced(source, once);
    assert twice.attributes == once.attributes;
  }
}

=== FILE: events.dfy ===
/** The values that travel between the navigator and the outside world:
    the History.js state payload, the fetched page as the core reads it,
    the request handle and the custom events triggered on the document. */
module Events {
  import opened Wrappers
  import opened Dom

  /** The `data` object pushed with `History.pushState`. jquery.swoosh.js
      pushes only `shouldFetchContent`; swoosh.js adds the link's attribute
      snapshot. A state reached by back/forward to a page Swoosh did not push
      has `shouldFetchContent` unset (false here). */
  datatype StateData = StateData(shouldFetchContent: bool, linkAttr: Option<map<string, string>>)

  /** What `History.getState()` returns on a `statechange`. */
  datatype HistoryState = HistoryState(data: StateData, title: string, url: string)

  /** A fetched page as the core reads it: the document title and the element
      matching `contentSelector` inside it (`None` when nothing matches).
      Parsing the response is left to the outside world. */
  datatype Page = Page(title: string, content: Option<Element>)

  /** An HTTP request the core started, numbered in the order it was issued. */
  datatype Request = Request(id: nat, url: string)

  /** The custom events triggered on the document, in the order triggered. */
  datatype Signal =
    | StateChanged(state: HistoryState)                          // swoosh/statechange
    | WillFetch(url: string)                                     // swoosh/willfetch
    | DidFetch(content: Option<Element>, pageName: Option<string>) // swoosh/didfetch
    | ErrorFetch                                                 // swoosh/errorfetch
    | DidReplace(content: Option<Element>, pageName: Option<string>) // swoosh/didreplace
    | DidFadeOut                                                 // swoosh/didfadeout
    | DidFadeIn                                                  // swoosh/didfadein
}

=== FILE: jqnavigator.dfy ===
/** The navigation state machine of jquery.swoosh.js: `onStateChange`,
    `fetchPageContent` with its single in-flight jqXHR, `onDidFetchContent`,
    and the fade-out / fetch / fade-in switch driven by `switchingState` and
    `maybeFadeInContent`.

    Each handler is a pure function from the instance state and the event to
    the next state and the custom events triggered on the document. The
    environment delivers the events: History.js the state changes, jQuery the
    request callbacks and the end of each animation, the browser the timer.
    Durations are not modelled; any interleaving of enabled events is
    possible. A handler that throws keeps what it changed before the throw
    and skips the rest. */
module JQueryNavigator {
  import opened Wrappers
  import opened Dom
  import opened Events
  import opened Options

  /** `switchingState.$newContent`: `null`, or the jQuery result of the
      content lookup in a fetched page (its first element, if any). */
  datatype Slot = Empty | Holds(found: Option<Element>)

  /** `switchingState`. */
  datatype Switching = Switching(newContent: Slot, isFadedOut: bool, isContentLoaded: bool)

  /** The switching state as a navigation in fade mode starts it. */
  const Reset: Switching := Switching(Empty, false, false)

  /** The animation running on the content element. Starting one stops the
      running one (`.stop().animate(...)`), whose completion then never runs. */
  datatype Anim = Still | FadingOut(url: string) | FadingIn

  /** The part of the instance and of the document the handlers change. */
  datatype JqNav = JqNav(
    jqxhr: Option<Request>,  // this.jqxhr
    live: set<nat>,          // requests whose callbacks can still fire
    nextId: nat,             // the number the next request gets
    switching: Switching,    // this.switchingState
    anim: Anim,              // the animation on this.$content
    fadeInTimers: nat,       // pending `setTimeout` callbacks of maybeFadeInContent
    content: Element,        // this.$content
    title: string,           // document.title
    busy: bool)              // the `fetching-page` class on <html>

  /** What the environment can deliver to the instance. */
  datatype Event =
    | StateChange(state: HistoryState)  // History.js `statechange`
    | FadeOutDone                       // completion of the fade-out animation
    | FetchSuccess(id: nat, page: Page) // `success` of request `id`
    | FetchError(id: nat)               // `error` of request `id` (network failure)
    | FadeInTimer                       // a `setTimeout` of maybeFadeInContent fires
    | FadeInDone                        // completion of the fade-in animation

  /** The state after a handler and the custom events it triggered, in order. */
  datatype Outcome = Outcome(next: JqNav, signals: seq<Signal>)

  /** Where `maybeFadeInContent` got to: the state, and whether it threw. */
  datatype Partial = Partial(next: JqNav, threw: bool)

  /** Content switches fade only when both options are on. */
  predicate FadeMode(settings: Settings)
  {
    settings.autoreplace && settings.fade
  }

  /** The instance right after `init`. */
  function Initial(content: Element, title: string): JqNav
  {
    JqNav(None, {}, 0, Reset, Still, 0, content, title, false)
  }

  /** The ids of the requests `this.jqxhr` can abort. */
  function Tracked(s: JqNav): set<nat>
  {
    if s.jqxhr.Some? then {s.jqxhr.value.id} else {}
  }

  /** `$newContent.attr(name)`: `undefined` when the lookup found nothing. */
  function PageName(found: Option<Element>, name: string): (r: Option<string>)
    ensures found.None? ==> r.None?
    ensures found.Some? ==> r == GetAttribute(found.value, name)
  {
    match found
    case None => None
    case Some(el) => GetAttribute(el, name)
  }

  /** `if (this.jqxhr) this.jqxhr.abort()`. jQuery reports an abort through
      the request's `error` callback, so aborting a live request triggers
      `swoosh/errorfetch` at once; aborting one that already ended does
      nothing. The handle itself stays. */
  function Abort(s: JqNav): (r: Outcome)
    ensures r.next == s.(live := s.live - Tracked(s))
    ensures r.signals != [] <==> s.jqxhr.Some? && s.jqxhr.value.id in s.live
    ensures r.signals == [] || r.signals == [ErrorFetch]
  {
    if s.jqxhr.Some? && s.jqxhr.value.id in s.live then
      Outcome(s.(live := s.live - {s.jqxhr.value.id}), [ErrorFetch])
    else
      Outcome(s.(live := s.live - Tracked(s)), [])
  }

  /** `fetchPageContent(url)`: trigger `swoosh/willfetch`, mark the page
      busy, abort the request in `this.jqxhr`, and store a new GET for `url`. */
  function FetchPageContent(s: JqNav, url: string): (r: Outcome)
    ensures r.next.jqxhr == Some(Request(s.nextId, url))
    ensures r.next.live == s.live - Tracked(s) + {s.nextId}
    ensures r.next.nextId == s.nextId + 1
    ensures r.next.busy
    ensures r.next == s.(jqxhr := r.next.jqxhr, live := r.next.live, nextId := r.next.nextId, busy := true)
    ensures |r.signals| >= 1 && r.signals[0] == WillFetch(url)
  {
    var a := Abort(s.(busy := true));
    Outcome(a.next.(jqxhr := Some(Request(s.nextId, url)), live := a.next.live + {s.nextId}, nextId := s.nextId + 1),
            [WillFetch(url)] + a.signals)
  }

  /** `maybeFadeInContent()`: once the old content is faded out and the new
      one is loaded, replace the content and schedule the fade-in. Replacing
      with a lookup that found nothing (or with `null`) throws. */
  function MaybeFadeInContent(s: JqNav): (r: Partial)
    ensures !(s.switching.isFadedOut && s.switching.isContentLoaded) ==> r == Partial(s, false)
    ensures r.threw ==> r.next == s
    ensures r.threw <==>
      && s.switching.isFadedOut && s.switching.isContentLoaded
      && !(s.switching.newContent.Holds? && s.switching.newContent.found.Some?)
    ensures (s.switching.isFadedOut && s.switching.isContentLoaded && !r.threw) <==>
      r.next.fadeInTimers == s.fadeInTimers + 1
    ensures r.next.fadeInTimers == s.fadeInTimers + 1 ==>
      && s.switching.newContent.Holds? && s.switching.newContent.found.Some?
      && r.next == s.(content := Replaced(s.switching.newContent.found.value, s.content), fadeInTimers := s.fadeInTimers + 1)
  {
    if s.switching.isFadedOut && s.switching.isContentLoaded then
      match s.switching.newContent
      case Holds(Some(el)) =>
        Partial(s.(content := Replaced(el, s.content), fadeInTimers := s.fadeInTimers + 1), false)
      case _ => Partial(s, true)
    else
      Partial(s, false)
  }

  /** `onStateChange()`: trigger `swoosh/statechange`; when the state asks for
      content, abort the running request, then either start the fade-out
      after resetting the switching state (fade mode) or fetch at once. */
  function OnStateChange(settings: Settings, s: JqNav, state: HistoryState): (r: Outcome)
    ensures |r.signals| >= 1 && r.signals[0] == StateChanged(state)
    ensures !state.data.shouldFetchContent ==> r == Outcome(s, [StateChanged(state)])
    ensures state.data.shouldFetchContent && FadeMode(settings) ==>
      r.next == s.(live := s.live - Tracked(s), switching := Reset, anim := FadingOut(state.url))
    ensures state.data.shouldFetchContent && !FadeMode(settings) ==>
      && r.next.jqxhr == Some(Request(s.nextId, state.url))
      && r.next.live == s.live - Tracked(s) + {s.nextId}
      && r.next.busy && r.next.content == s.content
  {
    if !state.data.shouldFetchContent then
      Outcome(s, [StateChanged(state)])
    else
      var a := Abort(s);
      if FadeMode(settings) then
        Outcome(a.next.(switching := Reset, anim := FadingOut(state.url)), [StateChanged(state)] + a.signals)
      else
        var f := FetchPageContent(a.next, state.url);
        Outcome(f.next, [StateChanged(state)] + a.signals + f.signals)
  }

  /** The fade-out completion callback of `onStateChange`: trigger
      `swoosh/didfadeout`, record the fade-out, try to fade in, then fetch. */
  function OnFadeOutDone(s: JqNav, url: string): (r: Outcome)
    ensures |r.signals| >= 1 && r.signals[0] == DidFadeOut
    ensures r.next.switching.isFadedOut
    ensures !s.switching.isContentLoaded ==>
      && r.next.jqxhr == Some(Request(s.nextId, url))
      && r.next.live == s.live - Tracked(s) + {s.nextId}
      && r.next.content == s.content && r.next.anim == Still
      && |r.signals| >= 2 && r.signals[1] == WillFetch(url)
  {
    var t := s.(anim := Still, switching := s.switching.(isFadedOut := true));
    var m := MaybeFadeInContent(t);
    if m.threw then
      Outcome(m.next, [DidFadeOut])
    else
      var f := FetchPageContent(m.next, url);
      Outcome(f.next, [DidFadeOut] + f.signals)
  }

  /** `onDidFetchContent(response)` for the success of request `id`: clear
      `this.jqxhr`, trigger `swoosh/didfetch` with the page name read from
      the new content, clear the busy mark and take the fetched title. Then,
      with `autoreplaceContent`, either hand the content to the fade switch
      or replace it at once and trigger `swoosh/didreplace`. */
  function OnDidFetchContent(settings: Settings, s: JqNav, id: nat, page: Page): (r: Outcome)
    ensures r.next.jqxhr.None? && !r.next.busy
    ensures r.next.title == page.title
    ensures r.next.live == s.live - {id}
    ensures |r.signals| >= 1 && r.signals[0] == DidFetch(page.content, PageName(page.content, settings.pageNameAttr))
    ensures !settings.autoreplace ==>
      && r.next.content == s.content && r.next.switching == s.switching
      && r.signals == [DidFetch(page.content, PageName(page.content, settings.pageNameAttr))]
    ensures settings.autoreplace && !settings.fade ==>
      && r.next.switching == s.switching
      && (page.content.Some? ==>
            && r.next.content == Replaced(page.content.value, s.content)
            && r.signals == [DidFetch(page.content, PageName(page.content, settings.pageNameAttr)),
                             DidReplace(page.content, PageName(page.content, settings.pageNameAttr))])
      && (page.content.None? ==>
            r.next.content == s.content && r.signals == [DidFetch(page.content, PageName(page.content, settings.pageNameAttr))])
    ensures settings.autoreplace && settings.fade ==>
      && r.next.switching == s.switching.(newContent := Holds(page.content), isContentLoaded := true)
      && r.signals == [DidFetch(page.content, PageName(page.content, settings.pageNameAttr))]
      && (s.switching.isFadedOut && page.content.Some? ==>
            r.next.content == Replaced(page.content.value, s.content) && r.next.fadeInTimers == s.fadeInTimers + 1)
      && (!s.switching.isFadedOut || page.content.None? ==>
            r.next.content == s.content && r.next.fadeInTimers == s.fadeInTimers)
  {
    var pageName := PageName(page.content, settings.pageNameAttr);
    var t := s.(jqxhr := None, live := s.live - {id}, busy := false, title := page.title);
    var fetched := [DidFetch(page.content, pageName)];
    if !settings.autoreplace then
      Outcome(t, fetched)
    else if settings.fade then
      var m := MaybeFadeInContent(t.(switching := t.switching.(newContent := Holds(page.content), isContentLoaded := true)));
      Outcome(m.next, fetched)
    else
      match page.content
      case None => Outcome(t, fetched)
      case Some(el) => Outcome(t.(content := Replaced(el, t.content)), fetched + [DidReplace(page.content, pageName)])
  }

  /** The `setTimeout` callback of `maybeFadeInContent`: start the fade-in
      (stopping whatever animation runs), trigger `swoosh/didreplace` with
      the `data-page` of the switched content, and reset the switched
      content. With no content in the slot, the trigger throws after the
      fade-in has started. */
  function OnFadeInTimer(s: JqNav): (r: Outcome)
    requires s.fadeInTimers > 0
    ensures r.next.anim == FadingIn && r.next.fadeInTimers + 1 == s.fadeInTimers
    ensures r.next.switching.isFadedOut == s.switching.isFadedOut
    ensures s.switching.newContent.Holds? ==>
      && r.next.switching.newContent == Empty && !r.next.switching.isContentLoaded
      && r.signals == [DidReplace(s.switching.newContent.found, PageName(s.switching.newContent.found, "data-page"))]
    ensures s.switching.newContent.Empty? ==> r.next.switching == s.switching && r.signals == []
    ensures r.next.(anim := s.anim, fadeInTimers := s.fadeInTimers, switching := s.switching) == s
  {
    var t := s.(fadeInTimers := s.fadeInTimers - 1, anim := FadingIn);
    match s.switching.newContent
    case Empty => Outcome(t, [])
    case Holds(found) =>
      Outcome(t.(switching := t.switching.(newContent := Empty, isContentLoaded := false)),
              [DidReplace(found, PageName(found, "data-page"))])
  }

  /** The fade-in completion callback: the content is no longer faded out;
      trigger `swoosh/didfadein`. */
  function OnFadeInDone(s: JqNav): (r: Outcome)
    ensures r.signals == [DidFadeIn]
    ensures !r.next.switching.isFadedOut && r.next.anim == Still
    ensures r.next.(anim := s.anim, switching := s.switching) == s
    ensures r.next.switching.(isFadedOut := s.switching.isFadedOut) == s.switching
  {
    Outcome(s.(anim := Still, switching := s.switching.(isFadedOut := false)), [DidFadeIn])
  }

  /** One event delivered to the instance. An event that cannot happen in
      the state (a callback of a dead request, the end of an animation that
      is not running, a timer nobody set) changes nothing. */
  function Step(settings: Settings, s: JqNav, e: Event): (r: Outcome)
  {
    match e
    case StateChange(state) => OnStateChange(settings, s, state)
    case FadeOutDone =>
      if s.anim.FadingOut? then OnFadeOutDone(s, s.anim.url) else Outcome(s, [])
    case FetchSuccess(id, page) =>
      if id in s.live then OnDidFetchContent(settings, s, id, page) else Outcome(s, [])
    case FetchError(id) =>
      if id in s.live then Outcome(s.(live := s.live - {id}), [ErrorFetch]) else Outcome(s, [])
    case FadeInTimer =>
      if s.fadeInTimers > 0 then OnFadeInTimer(s) else Outcome(s, [])
    case FadeInDone =>
      if s.anim.FadingIn? then OnFadeInDone(s) else Outcome(s, [])
  }

  /** Which events can act: a callback of a request that is no longer live,
      the end of an animation that is not running and a timer nobody set
      change nothing; no event lowers the request counter or revives an
      ended request (only a newly issued one becomes live). */
  lemma StepGuards(settings: Settings, s: JqNav, e: Event)
    ensures var r := Step(settings, s, e);
      && ((e.FetchSuccess? || e.FetchError?) && e.id !in s.live ==> r == Outcome(s, []))
      && (e.FadeOutDone? && !s.anim.FadingOut? ==> r == Outcome(s, []))
      && (e.FadeInTimer? && s.fadeInTimers == 0 ==> r == Outcome(s, []))
      && (e.FadeInDone? && !s.anim.FadingIn? ==> r == Outcome(s, []))
      && r.next.nextId >= s.nextId
      && r.next.live <= s.live + {s.nextId}
  {
  }

  /** The events in order, and the signals they trigger, concatenated. */
  function Run(settings: Settings, s: JqNav, events: seq<Event>): (r: Outcome)
    decreases |events|
  {
    if events == [] then Outcome(s, [])
    else
      var first := Step(settings, s, events[0]);
      var rest := Run(settings, first.next, events[1..]);
      Outcome(rest.next, first.signals + rest.signals)
  }

  /** What holds between events: only the request in `this.jqxhr` can call
      back, and it is the latest one issued; loaded content sits in the
      slot; while the old content fades out no request is in flight and
      nothing is loaded; without fade mode nothing fades. */
  predicate Valid(settings: Settings, s: JqNav)
  {
    && (s.jqxhr.Some? ==> s.jqxhr.value.id + 1 == s.nextId)
    && (forall id :: id in s.live ==> s.jqxhr.Some? && id == s.jqxhr.value.id)
    && (s.switching.isContentLoaded ==> s.switching.newContent.Holds?)
    && (s.anim.FadingOut? ==> !s.switching.isContentLoaded && s.live == {})
    && (!FadeMode(settings) ==> s.anim == Still && s.fadeInTimers == 0 && s.switching == Reset)
  }

  lemma InitialValid(settings: Settings, content: Element, title: string)
    ensures Valid(settings, Initial(content, title))
  {
  }

  lemma StepPreservesValid(settings: Settings, s: JqNav, e: Event)
    requires Valid(settings, s)
    ensures Valid(settings, Step(settings, s, e).next)
  {
  }

  lemma {:induction false} RunPreservesValid(settings: Settings, s: JqNav, events: seq<Event>)
    requires Valid(settings, s)
    ensures Valid(settings, Run(settings, s, events).next)
    decreases |events|
  {
    if events != [] {
      StepPreservesValid(settings, s, events[0]);
      RunPreservesValid(settings, Step(settings, s, events[0]).next, events[1..]);
    }
  }

  /** A state change that does not ask for content changes nothing and only
      triggers `swoosh/statechange`. */
  lemma NonFetchingStateChangeTouchesNothing(settings: Settings, s: JqNav, state: HistoryState)
    requires !state.data.shouldFetchContent
    ensures Step(settings, s, StateChange(state)) == Outcome(s, [StateChanged(state)])
  {
  }

  /** A state change that asks for content silences the running request
      first. In fade mode it resets the switching state and starts the
      fade-out without fetching yet; otherwise it fetches the state's URL at
      once. */
  lemma FetchingStateChange(settings: Settings, s: JqNav, state: HistoryState)
    requires Valid(settings, s)
    requires state.data.shouldFetchContent
    ensures var r := Step(settings, s, StateChange(state)).next;
      && (FadeMode(settings) ==>
            && r.switching == Reset && r.anim == FadingOut(state.url)
            && r.live == {} && r.nextId == s.nextId && r.content == s.content)
      && (!FadeMode(settings) ==>
            && r.jqxhr == Some(Request(s.nextId, state.url))
            && r.live == {s.nextId} && r.busy)
  {
  }

  /** When the fade-out ends, the content is marked faded out and the fetch
      for the navigation's URL starts; nothing has been loaded yet, so
      nothing is swapped. */
  lemma FadeOutDoneFetches(settings: Settings, s: JqNav, url: string)
    requires Valid(settings, s)
    requires s.anim == FadingOut(url)
    ensures var r := Step(settings, s, FadeOutDone);
      && r.next.switching.isFadedOut && !r.next.switching.isContentLoaded
      && r.next.jqxhr == Some(Request(s.nextId, url)) && r.next.live == {s.nextId}
      && r.next.content == s.content && r.next.anim == Still
      && r.signals == [DidFadeOut, WillFetch(url)]
  {
  }

  /** A new request is only ever stored after the previous one was aborted:
      whenever an event issues a request, that request is the only live one. */
  lemma NewRequestAbortsOld(settings: Settings, s: JqNav, e: Event)
    requires Valid(settings, s)
    ensures var r := Step(settings, s, e).next;
      r.nextId != s.nextId ==>
        && r.nextId == s.nextId + 1
        && r.live == {s.nextId}
        && r.jqxhr.Some? && r.jqxhr.value.id == s.nextId
  {
  }

  /** In fade mode the content is swapped only when it is both faded out and
      loaded, and every swap schedules exactly one fade-in. */
  lemma SwapNeedsBothFlags(settings: Settings, s: JqNav, e: Event)
    requires Valid(settings, s) && FadeMode(settings)
    ensures var r := Step(settings, s, e).next;
      r.content != s.content ==>
        && r.switching.isFadedOut && r.switching.isContentLoaded
        && r.fadeInTimers == s.fadeInTimers + 1
  {
  }

  /** Only the end of the fade-in (or a new navigation) clears `isFadedOut`. */
  lemma FadedOutClearedOnlyByFadeIn(settings: Settings, s: JqNav, e: Event)
    requires s.switching.isFadedOut
    ensures !Step(settings, s, e).next.switching.isFadedOut ==>
      (e.FadeInDone? && s.anim.FadingIn?) || (e.StateChange? && e.state.data.shouldFetchContent)
  {
  }

  /** A request that succeeds clears the handle and the busy mark and sets
      the title; one that fails triggers `swoosh/errorfetch` and keeps both. */
  lemma CompletionOfLiveRequest(settings: Settings, s: JqNav, id: nat, page: Page)
    requires id in s.live
    ensures var r := Step(settings, s, FetchSuccess(id, page)).next;
      r.jqxhr.None? && !r.busy && r.title == page.title && id !in r.live
    ensures Step(settings, s, FetchError(id)) == Outcome(s.(live := s.live - {id}), [ErrorFetch])
  {
  }

  /** Without a state change no fade-out can start, so once no fade-out is
      running, no request is ever issued. */
  lemma {:induction false} NoFetchWithoutFadeOut(settings: Settings, s: JqNav, events: seq<Event>)
    requires Valid(settings, s) && FadeMode(settings)
    requires !s.anim.FadingOut?
    requires forall i :: 0 <= i < |events| ==> !events[i].StateChange?
    ensures Run(settings, s, events).next.nextId == s.nextId
    decreases |events|
  {
    if events != [] {
      var t := Step(settings, s, events[0]).next;
      StepPreservesValid(settings, s, events[0]);
      assert !t.anim.FadingOut?;
      assert t.nextId == s.nextId;
      NoFetchWithoutFadeOut(settings, t, events[1..]);
    }
  }

  /** A fade-in timer left from an earlier navigation stops the fade-out of
      the current one, whose completion callback (the only place that
      fetches in fade mode) then never runs: until the next state change,
      the page asked for is never fetched. */
  lemma StaleFadeInTimerDropsFetch(settings: Settings, s: JqNav, state: HistoryState, later: seq<Event>)
    requires Valid(settings, s) && FadeMode(settings)
    requires s.fadeInTimers > 0 && state.data.shouldFetchContent
    requires forall i :: 0 <= i < |later| ==> !later[i].StateChange?
    ensures var t := Run(settings, s, [StateChange(state), FadeInTimer]).next;
      && t.anim == FadingIn && t.live == {}
      && Run(settings, t, later).next.nextId == s.nextId
  {
    var a := Step(settings, s, StateChange(state)).next;
    var t := Step(settings, a, FadeInTimer).next;
    StepPreservesValid(settings, s, StateChange(state));
    StepPreservesValid(settings, a, FadeInTimer);
    assert Run(settings, s, [StateChange(state), FadeInTimer]).next == t by {
      assert [StateChange(state), FadeInTimer][1..] == [FadeInTimer];
      assert [FadeInTimer][1..] == [];
    }
    NoFetchWithoutFadeOut(settings, t, later);
  }

  /** Running a non-empty sequence is taking its first step, then the rest. */
  lemma RunCons(settings: Settings, s: JqNav, e: Event, rest: seq<Event>)
    ensures var first := Step(settings, s, e);
      var after := Run(settings, first.next, rest);
      Run(settings, s, [e] + rest) == Outcome(after.next, first.signals + after.signals)
  {
    assert ([e] + rest)[1..] == rest;
  }

  /** The events in order under any step function. */
  function Fold(step: (JqNav, Event) -> Outcome, s: JqNav, events: seq<Event>): (r: Outcome)
    ensures events == [] ==> r == Outcome(s, [])
    decreases |events|
  {
    if events == [] then Outcome(s, [])
    else
      var first := step(s, events[0]);
      var rest := Fold(step, first.next, events[1..]);
      Outcome(rest.next, first.signals + rest.signals)
  }

  /** Concatenation of signal sequences is associative. */
  lemma SignalsAssociate(a: seq<Signal>, b: seq<Signal>, c: seq<Signal>)
    ensures a + (b + c) == (a + b) + c
  {
  }

  /** Folding over two sequences in turn is folding over their concatenation. */
  lemma {:induction false} FoldAppend(step: (JqNav, Event) -> Outcome, s: JqNav, xs: seq<Event>, ys: seq<Event>)
    ensures var first := Fold(step, s, xs);
      var second := Fold(step, first.next, ys);
      Fold(step, s, xs + ys) == Outcome(second.next, first.signals + second.signals)
    decreases |xs|
  {
    if xs == [] {
      assert xs + ys == ys;
    } else {
      var head := step(s, xs[0]);
      var zs := xs + ys;
      assert zs[0] == xs[0];
      assert zs[1..] == xs[1..] + ys;
      FoldAppend(step, head.next, xs[1..], ys);
      SignalsAssociate(head.signals, Fold(step, head.next, xs[1..]).signals,
                       Fold(step, Fold(step, s, xs).next, ys).signals);
    }
  }

  /** `Run` is the fold of `Step`. */
  lemma {:induction false} RunIsFold(settings: Settings, s: JqNav, events: seq<Event>)
    ensures Run(settings, s, events) == Fold((t: JqNav, e: Event) => Step(settings, t, e), s, events)
    decreases |events|
  {
    if events != [] {
      RunIsFold(settings, Step(settings, s, events[0]).next, events[1..]);
    }
  }

  /** Running two sequences one after the other is running their concatenation. */
  lemma RunAppend(settings: Settings, s: JqNav, xs: seq<Event>, ys: seq<Event>)
    ensures var first := Run(settings, s, xs);
      var second := Run(settings, first.next, ys);
      Run(settings, s, xs + ys) == Outcome(second.next, first.signals + second.signals)
  {
    var first := Run(settings, s, xs);
    RunIsFold(settings, s, xs);
    RunIsFold(settings, s, xs + ys);
    RunIsFold(settings, first.next, ys);
    FoldAppend((t: JqNav, e: Event) => Step(settings, t, e), s, xs, ys);
  }
}

=== FILE: jsvalues.dfy ===
/** The slice of JavaScript's value model that the option handling relies on:
    the kinds of value an option can hold, truthiness (`if (x)`, `x && y`,
    `x || y`), the `typeof x === "object"` test and the string conversion that
    `+` applies when one side is a string.

    Numbers are integers here: NaN, infinities and fractions are not modelled. */
module JsValues {

  datatype Value =
    | Undefined
    | Null
    | Bool(b: bool)
    | Num(n: int)
    | Str(s: string)
    | Obj(fields: map<string, Value>)

  /** JavaScript truthiness: `undefined`, `null`, `false`, `0` and `""` are falsy. */
  predicate Truthy(v: Value)
  {
    match v
    case Undefined => false
    case Null => false
    case Bool(b) => b
    case Num(n) => n != 0
    case Str(s) => s != ""
    case Obj(_) => true
  }

  /** `typeof v === "object"`, which in JavaScript also holds of `null`. */
  predicate IsObjectType(v: Value)
  {
    v.Null? || v.Obj?
  }

  /** Property read `v[key]`; a missing property (or a read on a non-object)
      yields `undefined`. */
  function Get(v: Value, key: string): (r: Value)
    ensures r != Undefined ==> v.Obj? && key in v.fields && r == v.fields[key]
    ensures v.Obj? && key in v.fields ==> r == v.fields[key]
  {
    if v.Obj? && key in v.fields then v.fields[key] else Undefined
  }

  /** The empty object literal `{}`. */
  const EmptyObject: Value := Obj(map[])

  /** Decimal digits of a natural number, most significant first. */
  function NatToDecimal(n: nat): (r: string)
    ensures |r| >= 1
    ensures forall i :: 0 <= i < |r| ==> '0' <= r[i] <= '9'
    decreases n
  {
    var d := [(('0' as int) + n % 10) as char];
    if n < 10 then d else NatToDecimal(n / 10) + d
  }

  /** The string `"" + v` produces: what `+=` appends and what a DOM method
      taking a selector or attribute name receives. */
  function ToStr(v: Value): (r: string)
    ensures v.Str? ==> r == v.s
    ensures v.Obj? ==> r == "[object Object]"
  {
    match v
    case Undefined => "undefined"
    case Null => "null"
    case Bool(b) => if b then "true" else "false"
    case Num(n) => if n < 0 then "-" + NatToDecimal(-n) else NatToDecimal(n)
    case Str(s) => s
    case Obj(_) => "[object Object]"
  }
}

=== FILE: merge.dfy ===
/** The two option merges of the repository.

    swoosh.js merges the caller's options into its defaults with `_extend`, a
    recursive walk that treats every `typeof ... === "object"` value (so also
    `null`) as something to merge into; jquery.swoosh.js uses jQuery's shallow
    `$.extend({}, defaults, options)`, which copies every property that is not
    `undefined`. Both are modelled on immutable values: the result is the new
    value of the object the source mutates, or for `_extend` the `TypeError`
    it throws. */
module Merge {
  import opened JsValues

  /** The property names `for (var property in obj2)` visits. */
  function OverrideKeys(o: Value): set<string>
  {
    if o.Obj? then o.fields.Keys else {}
  }

  /** An override whose `for ... in` loop runs at least once. */
  predicate HasKeys(o: Value)
  {
    o.Obj? && o.fields != map[]
  }

  /** `undefined` or `null`: reading or writing one of their properties throws
      a `TypeError`. */
  predicate Nullish(v: Value)
  {
    v.Undefined? || v.Null?
  }

  /** What a call of `_extend` ends in: the new value of `obj1`, or a
      `TypeError` thrown from somewhere inside the recursion. */
  datatype ExtendResult = Extended(value: Value) | Threw

  /** swoosh.js `_extend(obj1, obj2)`.

      Every visited property of an `undefined` or `null` target throws. On
      an object target, an object-typed override value (an object or `null`)
      is merged into the existing value when that is truthy and into a fresh
      `{}` otherwise, and any other override value overwrites. On any other
      primitive target writes are ignored, as JavaScript ignores property
      writes on primitives, and property reads give `undefined`: so the
      recursion for an object-typed value descends into `undefined`, which
      throws as soon as that value has a property of its own. */
  function Extend(target: Value, override: Value): (r: ExtendResult)
    ensures !HasKeys(override) ==> r == Extended(target)
    ensures HasKeys(override) && Nullish(target) ==> r == Threw
    ensures !target.Obj? && !Nullish(target) ==>
      && (r.Threw? <==> exists k :: k in OverrideKeys(override) && HasKeys(override.fields[k]))
      && (r.Extended? ==> r.value == target)
    ensures target.Obj? ==>
      (r.Threw? <==> exists k :: k in OverrideKeys(override) && ExtendKey(Get(target, k), override.fields[k]).Threw?)
    ensures target.Obj? && r.Extended? ==>
      && r.value.Obj? && r.value.fields.Keys == target.fields.Keys + OverrideKeys(override)
      && (forall k :: k in target.fields && k !in OverrideKeys(override) ==> r.value.fields[k] == target.fields[k])
    ensures target.Obj? && override.Obj? && r.Extended? ==>
      forall k :: k in override.fields && !IsObjectType(override.fields[k]) ==> r.value.fields[k] == override.fields[k]
    ensures target.Obj? && override.Obj? && r.Extended? ==>
      forall k :: k in override.fields && IsObjectType(override.fields[k]) ==>
        ExtendKey(Get(target, k), override.fields[k]) == Extended(r.value.fields[k])
    decreases override, 0
  {
    if !HasKeys(override) then Extended(target)
    else if Nullish(target) then Threw
    else if !target.Obj? then
      if exists k :: k in override.fields && IsObjectType(override.fields[k])
                     && Extend(Undefined, override.fields[k]).Threw?
      then Threw
      else Extended(target)
    else
      var t := target.fields;
      var o := override.fields;
      if exists k :: k in o && ExtendKey(Get(target, k), o[k]).Threw? then Threw
      else Extended(Obj(map k | k in t.Keys + o.Keys :: if k in o then ExtendKey(Get(target, k), o[k]).value else t[k]))
  }

  /** The new value of `obj1[property]` for one visited property of an object
      target: the body of the `for` loop of `_extend`. */
  function ExtendKey(existing: Value, override: Value): (r: ExtendResult)
    ensures !IsObjectType(override) ==> r == Extended(override)
    ensures IsObjectType(override) && !Truthy(existing) ==>
      r.Extended? && r.value.Obj? && r.value.fields.Keys == OverrideKeys(override)
    ensures IsObjectType(override) && Truthy(existing) && !existing.Obj? ==>
      && (r.Threw? <==> exists k :: k in OverrideKeys(override) && HasKeys(override.fields[k]))
      && (r.Extended? ==> r.value == existing)
    ensures IsObjectType(override) && existing.Obj? && r.Extended? ==>
      && r.value.Obj? && r.value.fields.Keys == existing.fields.Keys + OverrideKeys(override)
      && (forall k :: k in existing.fields && k !in OverrideKeys(override) ==> r.value.fields[k] == existing.fields[k])
    ensures override == Null && !Truthy(existing) ==> r == Extended(EmptyObject)
    decreases override, 1
  {
    if IsObjectType(override) then
      Extend(if Truthy(existing) then existing else EmptyObject, override)
    else
      Extended(override)
  }

  /** An object-typed override whose target value is falsy (absent, `null`,
      `""`, `0`, `false`) becomes a fresh object; in particular a `null`
      override never stores `null`: it leaves a truthy value in place and
      turns a falsy one into `{}`. */
  lemma NullOverrideBecomesEmptyObject(target: Value, key: string)
    requires target.Obj?
    ensures var v := Get(target, key);
      Extend(target, Obj(map[key := Null])) ==
        Extended(Obj(target.fields[key := if Truthy(v) then v else EmptyObject]))
  {
    NullKeyKeepsTruthy(Get(target, key));
    SingleKeyExtend(target, key, Null);
  }

  /** `obj1[p] || {}` for a `null` override: a truthy value is kept. */
  lemma NullKeyKeepsTruthy(v: Value)
    ensures ExtendKey(v, Null) == Extended(if Truthy(v) then v else EmptyObject)
  {
    if Truthy(v) {
      assert Extend(v, Null) == Extended(v);
    }
  }

  /** Merging an override with a single key into an object changes that key
      only, unless its merge throws. */
  lemma SingleKeyExtend(target: Value, key: string, ov: Value)
    requires target.Obj?
    ensures ExtendKey(Get(target, key), ov).Threw? ==> Extend(target, Obj(map[key := ov])).Threw?
    ensures ExtendKey(Get(target, key), ov).Extended? ==>
      Extend(target, Obj(map[key := ov])) == Extended(Obj(target.fields[key := ExtendKey(Get(target, key), ov).value]))
  {
    var o := Obj(map[key := ov]);
    assert OverrideKeys(o) == {key};
    var e := ExtendKey(Get(target, key), ov);
    if e.Extended? {
      var r := Extend(target, o);
      assert r.Extended?;
      var m := r.value.fields;
      assert m[key] == e.value by {
        if !IsObjectType(ov) {
          assert m[key] == ov;
        }
      }
      var want := target.fields[key := e.value];
      assert m.Keys == want.Keys;
      forall k | k in m
        ensures m[k] == want[k]
      {
        if k != key {
          assert k !in OverrideKeys(o);
        }
      }
      assert m == want;
    }
  }

  /** A nested option under a key whose current value is a truthy primitive
      (such as the string `linkSelector` default) makes `_extend` throw: the
      primitive is kept, the recursion reads `undefined` from it and then
      visits a property of `undefined`. */
  lemma NestedOverPrimitiveThrows(target: Value, key: string, inner: string, nested: Value)
    requires target.Obj? && Truthy(Get(target, key)) && !Get(target, key).Obj?
    requires HasKeys(nested)
    ensures Extend(target, Obj(map[key := Obj(map[inner := nested])])).Threw?
  {
    var ov := Obj(map[inner := nested]);
    assert inner in OverrideKeys(ov);
    assert ExtendKey(Get(target, key), ov).Threw?;
    assert key in OverrideKeys(Obj(map[key := ov]));
  }

  /** Values with no `null` anywhere inside. */
  predicate NullFree(v: Value)
    decreases v
  {
    match v
    case Null => false
    case Obj(f) => forall k :: k in f ==> NullFree(f[k])
    case _ => true
  }

  /** Extending a fresh `{}` with a `null`-free object yields a deep copy of it. */
  lemma {:induction false} ExtendIntoEmptyCopies(o: Value)
    requires o.Obj? && NullFree(o)
    ensures Extend(EmptyObject, o) == Extended(o)
    decreases o
  {
    var r := Extend(EmptyObject, o);
    if o.fields != map[] {
      assert forall k :: k in o.fields ==> ExtendKey(Get(EmptyObject, k), o.fields[k]).Extended?;
      assert r.Extended?;
      assert r.value.fields.Keys == o.fields.Keys;
      forall k | k in o.fields
        ensures r.value.fields[k] == o.fields[k]
      {
        var v := o.fields[k];
        if v.Obj? {
          assert ExtendKey(Get(EmptyObject, k), v) == Extended(r.value.fields[k]);
          ExtendIntoEmptyCopies(v);
        }
      }
    }
  }

  /** Merging the same override twice changes nothing more than merging it
      once, when the first merge does not throw. */
  lemma {:induction false} ExtendIdempotent(target: Value, override: Value)
    ensures Extend(target, override).Extended? ==>
      Extend(Extend(target, override).value, override) == Extend(target, override)
    decreases override
  {
    if HasKeys(override) && target.Obj? && Extend(target, override).Extended? {
      var once := Extend(target, override).value;
      forall k | k in override.fields && IsObjectType(override.fields[k])
        ensures ExtendKey(Get(once, k), override.fields[k]) == Extended(once.fields[k])
      {
        var ov := override.fields[k];
        var base := if Truthy(Get(target, k)) then Get(target, k) else EmptyObject;
        assert Extend(base, ov) == Extended(once.fields[k]);
        assert Truthy(once.fields[k]) by {
          if !base.Obj? {
            assert once.fields[k] == base;
          }
        }
        ExtendIdempotent(base, ov);
      }
      var twice := Extend(once, override);
      assert twice.Extended?;
      assert twice.value.fields.Keys == once.fields.Keys;
      forall k | k in twice.value.fields
        ensures twice.value.fields[k] == once.fields[k]
      {
        if k in override.fields && IsObjectType(override.fields[k]) {
          assert ExtendKey(Get(once, k), override.fields[k]) == Extended(twice.value.fields[k]);
        }
      }
    }
  }

  /** When no override value is object-typed (the case for every option
      Swoosh defines), `_extend` is a plain overwrite of the given keys. */
  lemma FlatExtendIsOverwrite(target: Value, override: Value)
    requires target.Obj? && override.Obj?
    requires forall k :: k in override.fields ==> !IsObjectType(override.fields[k])
    ensures Extend(target, override) == Extended(Obj(target.fields + override.fields))
  {
    var r := Extend(target, override);
    assert r.Extended?;
    assert r.value.fields == target.fields + override.fields;
  }

  /** jQuery `$.extend(target, source)` without the deep flag: every property
      of `source` whose value is not `undefined` is copied; a `null` or
      `undefined` source contributes nothing, and so, in this model, does any
      other primitive (the indices of a string source are not modelled). */
  function ShallowExtend(target: map<string, Value>, source: Value): (r: map<string, Value>)
    ensures r.Keys == target.Keys + set k | k in OverrideKeys(source) && source.fields[k] != Undefined
    ensures forall k :: k in target && (k !in OverrideKeys(source) || source.fields[k] == Undefined) ==> r[k] == target[k]
    ensures forall k :: k in OverrideKeys(source) && source.fields[k] != Undefined ==> r[k] == source.fields[k]
  {
    if source.Obj? then
      target + map k | k in source.fields && source.fields[k] != Undefined :: source.fields[k]
    else
      target
  }

  /** `$.extend({}, defaults, options)` as jquery.swoosh.js calls it. */
  function JQueryMerge(defaults: Value, options: Value): (r: Value)
    ensures r.Obj?
    ensures forall k :: k in r.fields <==>
      (k in OverrideKeys(defaults) && defaults.fields[k] != Undefined) || (k in OverrideKeys(options) && options.fields[k] != Undefined)
    ensures forall k :: k in OverrideKeys(options) && options.fields[k] != Undefined ==> r.fields[k] == options.fields[k]
  {
    Obj(ShallowExtend(ShallowExtend(map[], defaults), options))
  }

  /** Each option of the jQuery merge comes from the caller when the caller
      gave it a value other than `undefined`, and from the defaults otherwise. */
  lemma JQueryMergeOption(defaults: Value, options: Value, key: string)
    ensures Get(JQueryMerge(defaults, options), key) ==
      (if Get(options, key) != Undefined then Get(options, key) else Get(defaults, key))
  {
  }
}

=== FILE: navigator.dfy ===
/** The navigation state machine of swoosh.js (the version without fading):
    `onStateChange`, `fetchPageContent` with its single in-flight
    XMLHttpRequest, and `onDidFetchContent` with its `readyState` guard.

    Each handler is a pure function from the instance state and the event to
    the next state and the custom events triggered on the document. The
    network, History.js and the DOM outside the content element are the
    environment: they deliver the events. A request can only call back while
    it is live (issued and neither aborted nor finished). */
module Navigator {
  import opened Wrappers
  import opened Dom
  import opened Events
  import opened Options

  /** The part of the instance and of the document the handlers change. */
  datatype Nav = Nav(
    xhr: Option<Request>,  // this.xhr
    live: set<nat>,        // requests whose callbacks can still fire
    nextId: nat,           // the number the next request gets
    content: Element,      // this.contentEl
    title: string,         // document.title
    busy: bool)            // the `fetching-page` class on <body>

  /** What the environment can deliver to the instance. */
  datatype Event =
    | StateChange(state: HistoryState)                                 // History.js `statechange`
    | ReadyStateChange(id: nat, readyState: nat, response: Option<Page>) // `xhr.onreadystatechange`
    | RequestError(id: nat)                                            // `xhr.onerror`

  /** The state after a handler and the custom events it triggered, in order. */
  datatype Outcome = Outcome(next: Nav, signals: seq<Signal>)

  /** The instance right after `init`: no request, nothing busy. */
  function Initial(content: Element, title: string): Nav
  {
    Nav(None, {}, 0, content, title, false)
  }

  /** Every live request is the one `this.xhr` holds, and that one is the
      most recently issued: at most one request is ever in flight. */
  predicate Valid(s: Nav)
  {
    && (s.xhr.Some? ==> s.xhr.value.id + 1 == s.nextId)
    && (forall id :: id in s.live ==> s.xhr.Some? && id == s.xhr.value.id)
  }

  /** The ids of the requests `this.xhr` can abort. */
  function Tracked(s: Nav): set<nat>
  {
    if s.xhr.Some? then {s.xhr.value.id} else {}
  }

  /** `fetchPageContent(url)`: trigger `swoosh/willfetch`, mark the page busy,
      abort the request in `this.xhr` if there is one, and issue a new GET for
      `url`. (An abort makes the old request report `readyState` 4 at once;
      `onDidFetchContent` then fails on its missing `responseXML` and changes
      nothing, so the abort is modelled as the request falling silent.) */
  function FetchPageContent(s: Nav, url: string): (r: Outcome)
    ensures r.signals == [WillFetch(url)]
    ensures r.next.xhr == Some(Request(s.nextId, url))
    ensures r.next.live == s.live - Tracked(s) + {s.nextId}
    ensures r.next.nextId == s.nextId + 1
    ensures r.next.busy
    ensures r.next.content == s.content && r.next.title == s.title
  {
    var live := s.live - Tracked(s);
    Outcome(s.(xhr := Some(Request(s.nextId, url)), live := live + {s.nextId}, nextId := s.nextId + 1, busy := true),
            [WillFetch(url)])
  }

  /** `onStateChange()`: trigger `swoosh/statechange` for every history
      transition, and fetch the state's URL exactly when its data asks for it. */
  function OnStateChange(s: Nav, state: HistoryState): (r: Outcome)
    ensures |r.signals| >= 1 && r.signals[0] == StateChanged(state)
    ensures !state.data.shouldFetchContent ==> r == Outcome(s, [StateChanged(state)])
    ensures state.data.shouldFetchContent ==>
      && r.next.xhr == Some(Request(s.nextId, state.url))
      && r.signals == [StateChanged(state), WillFetch(state.url)]
  {
    if state.data.shouldFetchContent then
      var f := FetchPageContent(s, state.url);
      Outcome(f.next, [StateChanged(state)] + f.signals)
    else
      Outcome(s, [StateChanged(state)])
  }

  /** `onDidFetchContent()` for a callback of request `id`. It reads
      `this.xhr` and acts only at `readyState` 4 with a parsed document:
      trigger `swoosh/didfetch`, clear `this.xhr`, take the fetched title,
      then, when `autoreplaceContent` is set, replace the content and trigger
      `swoosh/didreplace`, and finally clear the busy mark. Without a
      document (network error, abort) the handler throws before any change;
      with a document lacking the content element, `replaceContent` throws
      and the busy mark stays. */
  function OnDidFetchContent(settings: Settings, s: Nav, id: nat, readyState: nat, response: Option<Page>): (r: Outcome)
    ensures readyState != 4 || response.None? || s.xhr.None? ==> r == Outcome(s, [])
    ensures readyState == 4 && response.Some? && s.xhr.Some? ==>
      && r.next.xhr.None?
      && r.next.title == response.value.title
      && r.next.live == s.live - {id}
      && r.next.nextId == s.nextId
      && |r.signals| >= 1 && r.signals[0] == DidFetch(response.value.content, Some(response.value.title))
      && (settings.autoreplace && response.value.content.Some? ==>
            && r.next.content == Replaced(response.value.content.value, s.content)
            && r.signals == [DidFetch(response.value.content, Some(response.value.title)),
                             DidReplace(response.value.content, Some(response.value.title))]
            && !r.next.busy)
      && (!settings.autoreplace ==>
            r.next.content == s.content && r.signals == [DidFetch(response.value.content, Some(response.value.title))]
            && !r.next.busy)
      && (settings.autoreplace && response.value.content.None? ==>
            r.next.content == s.content && r.next.busy == s.busy
            && r.signals == [DidFetch(response.value.content, Some(response.value.title))])
      && r.next.(content := s.content, busy := s.busy) ==
           s.(xhr := None, live := s.live - {id}, title := response.value.title)
  {
    if s.xhr.None? || readyState != 4 || response.None? then Outcome(s, [])
    else
      var page := response.value;
      var fetched := [DidFetch(page.content, Some(page.title))];
      var t := s.(xhr := None, live := s.live - {id}, title := page.title);
      if !settings.autoreplace then
        Outcome(t.(busy := false), fetched)
      else
        match page.content
        case None => Outcome(t, fetched)
        case Some(el) =>
          Outcome(t.(content := Replaced(el, t.content), busy := false),
                  fetched + [DidReplace(page.content, Some(page.title))])
  }

  /** `xhr.onerror`: trigger `swoosh/errorfetch`. The request handle and the
      busy mark stay as they are. */
  function OnRequestError(s: Nav, id: nat): (r: Outcome)
    ensures r.signals == [ErrorFetch]
    ensures r.next == s.(live := s.live - {id})
  {
    Outcome(s.(live := s.live - {id}), [ErrorFetch])
  }

  /** One event delivered to the instance. Request callbacks arrive only from
      live requests; anything else cannot happen and changes nothing. */
  function Step(settings: Settings, s: Nav, e: Event): (r: Outcome)
  {
    match e
    case StateChange(state) => OnStateChange(s, state)
    case ReadyStateChange(id, readyState, response) =>
      if id in s.live then OnDidFetchContent(settings, s, id, readyState, response) else Outcome(s, [])
    case RequestError(id) =>
      if id in s.live then OnRequestError(s, id) else Outcome(s, [])
  }

  /** Which events can act: a callback of a request that is no longer live
      changes nothing, no event lowers the request counter, and no event
      revives an ended request (only a newly issued one becomes live). */
  lemma StepGuards(settings: Settings, s: Nav, e: Event)
    ensures var r := Step(settings, s, e);
      && (!e.StateChange? && e.id !in s.live ==> r == Outcome(s, []))
      && r.next.nextId >= s.nextId
      && r.next.live <= s.live + {s.nextId}
  {
  }

  /** The single-flight invariant holds initially and after every event. */
  lemma StepPreservesValid(settings: Settings, s: Nav, e: Event)
    requires Valid(s)
    ensures Valid(Step(settings, s, e).next)
  {
  }

  lemma InitialValid(content: Element, title: string)
    ensures Valid(Initial(content, title))
  {
  }

  /** A request superseded by a newer fetch never calls back again, so it can
      neither change the title nor replace the content. */
  lemma SupersededRequestIgnored(settings: Settings, s: Nav, url: string, e: Event)
    requires Valid(s) && s.xhr.Some?
    requires e.ReadyStateChange? || e.RequestError?
    requires e.id == s.xhr.value.id
    ensures var t := FetchPageContent(s, url).next;
      Step(settings, t, e) == Outcome(t, [])
  {
  }

  /** A state change that does not ask for content changes nothing but
      triggers `swoosh/statechange`; one that does starts exactly one request,
      for the state's URL, after silencing the previous one. */
  lemma StateChangeFetchesIff(settings: Settings, s: Nav, state: HistoryState)
    requires Valid(s)
    ensures var r := Step(settings, s, StateChange(state));
      && (state.data.shouldFetchContent <==> r.next.nextId == s.nextId + 1)
      && (state.data.shouldFetchContent ==> r.next.live == {s.nextId} && r.next.xhr == Some(Request(s.nextId, state.url)))
      && (!state.data.shouldFetchContent ==> r.next == s)
  {
  }

  /** Only a response to the most recently issued request can change the
      content or the title: every older request has been aborted or has
      finished. */
  lemma OnlyLatestRequestChangesPage(settings: Settings, s: Nav, e: Event)
    requires Valid(s)
    ensures var t := Step(settings, s, e).next;
      (t.content != s.content || t.title != s.title) ==>
        e.ReadyStateChange? && e.id + 1 == s.nextId
  {
  }

  /** The events in order, and the signals they trigger, concatenated. */
  function Run(settings: Settings, s: Nav, events: seq<Event>): (r: Outcome)
    decreases |events|
  {
    if events == [] then Outcome(s, [])
    else
      var first := Step(settings, s, events[0]);
      var rest := Run(settings, first.next, events[1..]);
      Outcome(rest.next, first.signals + rest.signals)
  }

  /** The single-flight invariant holds after any sequence of events. */
  lemma {:induction false} RunPreservesValid(settings: Settings, s: Nav, events: seq<Event>)
    requires Valid(s)
    ensures Valid(Run(settings, s, events).next)
    decreases |events|
  {
    if events != [] {
      StepPreservesValid(settings, s, events[0]);
      RunPreservesValid(settings, Step(settings, s, events[0]).next, events[1..]);
    }
  }

  /** Running two events is taking one step after the other. */
  lemma RunTwo(settings: Settings, s: Nav, e0: Event, e1: Event)
    ensures var first := Step(settings, s, e0);
      var second := Step(settings, first.next, e1);
      Run(settings, s, [e0, e1]) == Outcome(second.next, first.signals + second.signals)
  {
    var first := Step(settings, s, e0);
    var second := Step(settings, first.next, e1);
    assert [e0, e1][1..] == [e1];
    assert [e1][1..] == [];
    assert Run(settings, second.next, []) == Outcome(second.next, []);
    assert second.signals + [] == second.signals;
  }
}

=== FILE: options.dfy ===
/** Initialisation of both versions: merging the caller's options over the
    defaults, the configuration checks in their fixed order, and the
    extension of `linkSelector` for automatic internal-link detection. */
module Options {
  import opened JsValues
  import opened Merge

  /** What the page provides: `window.History` and its `History.Adapter`. */
  datatype HistoryEnv = HistoryEnv(history: bool, adapter: bool)

  datatype InitError = NoHistory | NoAdapter | NoBaseUrl

  /** The outcome of `init`: the instance's options, `false` with the reason
      reported, an `Error` for the reason thrown out of `init`, or a
      `TypeError` thrown out of `init`. */
  datatype InitOutcome =
    | Initialised(options: Value)
    | ReturnedFalse(reason: InitError)
    | ThrewError(reason: InitError)
    | ThrewTypeError

  /** The option values `init` and the handlers read, with truthiness applied
      where the source tests an option with `if`. */
  datatype Settings = Settings(
    linkSelector: string,
    pageNameAttr: string,
    tempTitleFromAttr: Value,
    autoreplace: bool,
    fade: bool)

  /** The `defaults` object of jquery.swoosh.js. */
  const JQueryDefaults: Value := Obj(map[
    "baseUrl" := Null,
    "contentSelector" := Str("#content"),
    "pageNameAttr" := Str("data-page"),
    "linkSelector" := Str("#nav a"),
    "swooshInternalLinks" := Bool(false),
    "autoreplaceContent" := Bool(true),
    "ajaxCache" := Bool(true),
    "addLoadingIndicator" := Bool(false),
    "tempTitleFromAttr" := Str("data-title"),
    "scrollTopDuration" := Num(300),
    "fadeContentSwitch" := Bool(true),
    "fadeContentDuration" := Num(300),
    "fadeContentDelay" := Num(100)])

  /** The `defaults` object of swoosh.js (it has no fading options). */
  const SwooshDefaults: Value := Obj(map[
    "baseUrl" := Null,
    "contentSelector" := Str("#content"),
    "pageNameAttr" := Str("data-page"),
    "linkSelector" := Str("#nav a"),
    "swooshInternalLinks" := Bool(false),
    "autoreplaceContent" := Bool(true),
    "ajaxCache" := Bool(true),
    "tempTitleFromAttr" := Str("data-title")])

  /** `x && x.length > 0`: a non-empty string, or an object whose own
      `length` property is a positive number. */
  predicate HasPositiveLength(v: Value)
  {
    match v
    case Str(s) => |s| > 0
    case Obj(_) => Get(v, "length").Num? && Get(v, "length").n > 0
    case _ => false
  }

  /** The selector `linkSelector += (...) + 'a[href*="' + baseUrl + '"]'`
      leaves behind: the old selector converted to a string, a `", "`
      separator only when the old selector had a positive length, then an
      attribute selector for links whose `href` contains the base URL. */
  function InternalLinkSelector(linkSelector: Value, baseUrl: Value): (r: string)
    ensures linkSelector.Str? ==>
      r == linkSelector.s + (if linkSelector.s != "" then ", " else "") + "a[href*=\"" + ToStr(baseUrl) + "\"]"
  {
    ToStr(linkSelector) + (if HasPositiveLength(linkSelector) then ", " else "") + "a[href*=\"" + ToStr(baseUrl) + "\"]"
  }

  /** The options `init` keeps once its checks have passed. */
  function WithInternalLinks(merged: Value): (r: Value)
    requires merged.Obj?
    ensures r.Obj?
    ensures forall k :: k != "linkSelector" ==> Get(r, k) == Get(merged, k)
    ensures Truthy(Get(merged, "swooshInternalLinks")) ==>
      Get(r, "linkSelector") == Str(InternalLinkSelector(Get(merged, "linkSelector"), Get(merged, "baseUrl")))
    ensures !Truthy(Get(merged, "swooshInternalLinks")) ==> r == merged
  {
    if Truthy(Get(merged, "swooshInternalLinks")) then
      Obj(merged.fields["linkSelector" := Str(InternalLinkSelector(Get(merged, "linkSelector"), Get(merged, "baseUrl")))])
    else
      merged
  }

  /** jquery.swoosh.js `init(options)`. The options are merged first; then a
      missing `window.History` makes the read of `History.Adapter` throw a
      `TypeError`. A missing adapter, and automatic internal links without a
      truthy `baseUrl`, reach `$.error`, which throws an `Error` with the
      message, so the `return false` after it is never reached. */
  function InitJQuery(env: HistoryEnv, options: Value): (r: InitOutcome)
    ensures !r.ReturnedFalse?
    ensures !env.history <==> r.ThrewTypeError?
    ensures r.ThrewError? <==>
      (env.history &&
       (!env.adapter || (Truthy(Get(JQueryMerge(JQueryDefaults, options), "swooshInternalLinks"))
                         && !Truthy(Get(JQueryMerge(JQueryDefaults, options), "baseUrl")))))
    ensures r.ThrewError? && !env.adapter ==> r.reason == NoAdapter
    ensures r.ThrewError? && env.adapter ==> r.reason == NoBaseUrl
    ensures r.Initialised? ==> r.options == WithInternalLinks(JQueryMerge(JQueryDefaults, options))
  {
    var merged := JQueryMerge(JQueryDefaults, options);
    if !env.history then ThrewTypeError
    else if !env.adapter then ThrewError(NoAdapter)
    else if Truthy(Get(merged, "swooshInternalLinks")) && !Truthy(Get(merged, "baseUrl")) then ThrewError(NoBaseUrl)
    else Initialised(WithInternalLinks(merged))
  }

  /** swoosh.js `init(options)`: the options are merged with `_extend`, which
      throws a `TypeError` out of `init` for some nested options; then three
      checks in order, each returning `false`: no `window.History`, no
      `History.Adapter`, automatic internal links without a truthy `baseUrl`. */
  function InitSwoosh(env: HistoryEnv, options: Value): (r: InitOutcome)
    ensures !r.ThrewError?
    ensures r.ThrewTypeError? <==> Extend(SwooshDefaults, options).Threw?
    ensures r.ReturnedFalse? <==>
      && Extend(SwooshDefaults, options).Extended?
      && (|| !env.history
          || !env.adapter
          || (Truthy(Get(Extend(SwooshDefaults, options).value, "swooshInternalLinks"))
              && !Truthy(Get(Extend(SwooshDefaults, options).value, "baseUrl"))))
    ensures Extend(SwooshDefaults, options).Extended? && !env.history ==> r == ReturnedFalse(NoHistory)
    ensures Extend(SwooshDefaults, options).Extended? && env.history && !env.adapter ==> r == ReturnedFalse(NoAdapter)
    ensures r.ReturnedFalse? && env.history && env.adapter ==> r.reason == NoBaseUrl
    ensures r.Initialised? ==>
      Extend(SwooshDefaults, options).Extended? && r.options == WithInternalLinks(Extend(SwooshDefaults, options).value)
  {
    var m := Extend(SwooshDefaults, options);
    if m.Threw? then ThrewTypeError
    else
    var merged := m.value;
    if !env.history then ReturnedFalse(NoHistory)
    else if !env.adapter then ReturnedFalse(NoAdapter)
    else if Truthy(Get(merged, "swooshInternalLinks")) && !Truthy(Get(merged, "baseUrl")) then ReturnedFalse(NoBaseUrl)
    else Initialised(WithInternalLinks(merged))
  }

  /** The settings the handlers read from an instance's options. `fading`
      says whether the version has the fade transition at all (only
      jquery.swoosh.js has). */
  function SettingsOf(options: Value, fading: bool): (s: Settings)
    ensures s.autoreplace <==> Truthy(Get(options, "autoreplaceContent"))
    ensures s.fade <==> fading && Truthy(Get(options, "fadeContentSwitch"))
  {
    Settings(
      ToStr(Get(options, "linkSelector")),
      ToStr(Get(options, "pageNameAttr")),
      Get(options, "tempTitleFromAttr"),
      Truthy(Get(options, "autoreplaceContent")),
      fading && Truthy(Get(options, "fadeContentSwitch")))
  }

  /** Options given as plain (non-object) values: what callers normally pass. */
  predicate FlatOptions(options: Value)
  {
    options.Obj? && forall k :: k in options.fields ==> !IsObjectType(options.fields[k])
  }

  /** With flat options, each option of swoosh.js is the caller's value when
      given and the default otherwise, like the jQuery version except that an
      explicit `undefined` does override. */
  lemma SwooshMergeOption(options: Value, key: string)
    requires FlatOptions(options)
    ensures Extend(SwooshDefaults, options).Extended?
    ensures Get(Extend(SwooshDefaults, options).value, key) ==
      (if key in options.fields then options.fields[key] else Get(SwooshDefaults, key))
  {
    FlatExtendIsOverwrite(SwooshDefaults, options);
  }

  /** With automatic internal links and a string selector and base URL,
      swoosh.js ends with the old selector, `", "` only when it was
      non-empty, and `a[href*="<baseUrl>"]`; without them the selector stays
      as given. */
  lemma InitSwooshLinkSelector(env: HistoryEnv, options: Value, selector: string, baseUrl: string)
    requires env.history && env.adapter
    requires FlatOptions(options) && baseUrl != ""
    requires Get(options, "linkSelector") == Str(selector) && Get(options, "baseUrl") == Str(baseUrl)
    ensures InitSwoosh(env, options).Initialised?
    ensures Get(options, "swooshInternalLinks") == Bool(true) ==>
      Get(InitSwoosh(env, options).options, "linkSelector") ==
        Str(selector + (if selector != "" then ", " else "") + "a[href*=\"" + baseUrl + "\"]")
    ensures Get(options, "swooshInternalLinks") == Bool(false) ==>
      Get(InitSwoosh(env, options).options, "linkSelector") == Str(selector)
  {
    SwooshMergeOption(options, "linkSelector");
    SwooshMergeOption(options, "baseUrl");
    SwooshMergeOption(options, "swooshInternalLinks");
  }

  /** The same selector for jquery.swoosh.js. */
  lemma InitJQueryLinkSelector(env: HistoryEnv, options: Value, selector: string, baseUrl: string)
    requires env.history && env.adapter
    requires baseUrl != ""
    requires Get(options, "linkSelector") == Str(selector) && Get(options, "baseUrl") == Str(baseUrl)
    ensures InitJQuery(env, options).Initialised?
    ensures Get(options, "swooshInternalLinks") == Bool(true) ==>
      Get(InitJQuery(env, options).options, "linkSelector") ==
        Str(selector + (if selector != "" then ", " else "") + "a[href*=\"" + baseUrl + "\"]")
    ensures Get(options, "swooshInternalLinks") == Bool(false) ==>
      Get(InitJQuery(env, options).options, "linkSelector") == Str(selector)
  {
    JQueryMergeOption(JQueryDefaults, options, "linkSelector");
    JQueryMergeOption(JQueryDefaults, options, "baseUrl");
    JQueryMergeOption(JQueryDefaults, options, "swooshInternalLinks");
  }

  /** Once the checks pass, the options kept are the merged ones with the
      selector extension applied. */
  lemma InitAccepts(env: HistoryEnv, options: Value)
    requires env.history && env.adapter
    ensures var merged := JQueryMerge(JQueryDefaults, options);
      Truthy(Get(merged, "baseUrl")) || !Truthy(Get(merged, "swooshInternalLinks")) ==>
        InitJQuery(env, options) == Initialised(WithInternalLinks(merged))
    ensures var m := Extend(SwooshDefaults, options);
      m.Extended? && (Truthy(Get(m.value, "baseUrl")) || !Truthy(Get(m.value, "swooshInternalLinks"))) ==>
        InitSwoosh(env, options) == Initialised(WithInternalLinks(m.value))
  {
  }

  /** The extended selector when the old selector is `null`. */
  lemma NullSelectorExtension(merged: Value, baseUrl: string)
    requires merged.Obj? && Get(merged, "swooshInternalLinks") == Bool(true)
    requires Get(merged, "linkSelector") == Null && Get(merged, "baseUrl") == Str(baseUrl)
    ensures Get(WithInternalLinks(merged), "linkSelector") == Str("nulla[href*=\"" + baseUrl + "\"]")
  {
    assert InternalLinkSelector(Null, Str(baseUrl)) == "nulla[href*=\"" + baseUrl + "\"]";
  }

  /** jQuery's merge copies an explicit `null` selector, which then converts
      to the text `null` in front of the internal-link selector. */
  lemma JQueryNullLinkSelector(env: HistoryEnv, options: Value, baseUrl: string)
    requires env.history && env.adapter && baseUrl != ""
    requires Get(options, "linkSelector") == Null && Get(options, "swooshInternalLinks") == Bool(true)
    requires Get(options, "baseUrl") == Str(baseUrl)
    ensures InitJQuery(env, options).Initialised?
    ensures Get(InitJQuery(env, options).options, "linkSelector") == Str("nulla[href*=\"" + baseUrl + "\"]")
  {
    var merged := JQueryMerge(JQueryDefaults, options);
    JQueryMergeOption(JQueryDefaults, options, "linkSelector");
    JQueryMergeOption(JQueryDefaults, options, "baseUrl");
    JQueryMergeOption(JQueryDefaults, options, "swooshInternalLinks");
    InitAccepts(env, options);
    NullSelectorExtension(merged, baseUrl);
  }

  /** The defaults of swoosh.js this module's lemmas rely on. */
  lemma SwooshDefaultValues()
    ensures SwooshDefaults.Obj?
    ensures Get(SwooshDefaults, "baseUrl") == Null
    ensures Get(SwooshDefaults, "linkSelector") == Str("#nav a")
  {
  }

  /** The defaults of jquery.swoosh.js that decide the fade mode. */
  lemma JQueryDefaultValues()
    ensures JQueryDefaults.Obj?
    ensures Get(JQueryDefaults, "autoreplaceContent") == Bool(true)
    ensures Get(JQueryDefaults, "fadeContentSwitch") == Bool(true)
    ensures Get(JQueryDefaults, "swooshInternalLinks") == Bool(false)
  {
  }

  /** The two versions share their defaults: every option swoosh.js defines
      is defined by jquery.swoosh.js with the same default value. */
  lemma DefaultsAgree()
    ensures SwooshDefaults.Obj? && JQueryDefaults.Obj?
    ensures SwooshDefaults.fields.Keys <= JQueryDefaults.fields.Keys
    ensures forall k :: k in SwooshDefaults.fields ==> Get(JQueryDefaults, k) == SwooshDefaults.fields[k]
  {
    forall k | k in SwooshDefaults.fields
      ensures k in JQueryDefaults.fields && JQueryDefaults.fields[k] == SwooshDefaults.fields[k]
    {
      SharedDefault(k);
    }
  }

  /** One option of the swoosh.js defaults, looked up in both. */
  lemma SharedDefault(k: string)
    requires k in SwooshDefaults.fields
    ensures k in JQueryDefaults.fields && JQueryDefaults.fields[k] == SwooshDefaults.fields[k]
  {
    if k == "baseUrl" {
    } else if k == "contentSelector" {
    } else if k == "pageNameAttr" {
    } else if k == "linkSelector" {
    } else if k == "swooshInternalLinks" {
    } else if k == "autoreplaceContent" {
    } else if k == "ajaxCache" {
    } else {
      assert k == "tempTitleFromAttr";
    }
  }

  /** After a successful swoosh.js init with internal links, the handlers
      match clicks against the extended selector, and nothing fades. */
  lemma InitSwooshSettings(env: HistoryEnv, options: Value, selector: string, baseUrl: string)
    requires env.history && env.adapter
    requires FlatOptions(options) && baseUrl != ""
    requires Get(options, "linkSelector") == Str(selector) && Get(options, "baseUrl") == Str(baseUrl)
    requires Get(options, "swooshInternalLinks") == Bool(true)
    ensures InitSwoosh(env, options).Initialised?
    ensures var st := SettingsOf(InitSwoosh(env, options).options, false);
      && st.linkSelector == selector + (if selector != "" then ", " else "") + "a[href*=\"" + baseUrl + "\"]"
      && !st.fade
  {
    InitSwooshLinkSelector(env, options, selector, baseUrl);
  }

  /** jquery.swoosh.js fades content switches unless the caller says
      otherwise: with neither `autoreplaceContent` nor `fadeContentSwitch`
      given, the handlers run with both on. */
  lemma JQueryFadesByDefault(env: HistoryEnv, options: Value)
    requires env.history && env.adapter
    requires Get(options, "autoreplaceContent") == Undefined && Get(options, "fadeContentSwitch") == Undefined
    requires Get(options, "swooshInternalLinks") == Undefined
    ensures InitJQuery(env, options).Initialised?
    ensures var st := SettingsOf(InitJQuery(env, options).options, true);
      st.autoreplace && st.fade
  {
    JQueryDefaultValues();
    JQueryMergeOption(JQueryDefaults, options, "autoreplaceContent");
    JQueryMergeOption(JQueryDefaults, options, "fadeContentSwitch");
    JQueryMergeOption(JQueryDefaults, options, "swooshInternalLinks");
  }

  /** Merging `{swooshInternalLinks: true, baseUrl: null}` into defaults whose
      `baseUrl` is `null`. */
  lemma NullBaseUrlMerged(defaults: Value, options: Value)
    requires defaults.Obj? && Get(defaults, "baseUrl") == Null
    requires options == Obj(map["swooshInternalLinks" := Bool(true), "baseUrl" := Null])
    ensures Extend(defaults, options).Extended?
    ensures Get(Extend(defaults, options).value, "baseUrl") == EmptyObject
    ensures Get(Extend(defaults, options).value, "linkSelector") == Get(defaults, "linkSelector")
    ensures Get(Extend(defaults, options).value, "swooshInternalLinks") == Bool(true)
  {
    assert OverrideKeys(options) == {"swooshInternalLinks", "baseUrl"};
    NullKeyKeepsTruthy(Null);
    assert ExtendKey(Get(defaults, "swooshInternalLinks"), Bool(true)) == Extended(Bool(true));
    var r := Extend(defaults, options);
    assert r.Extended?;
    assert r.value.fields["baseUrl"] == EmptyObject;
  }

  /** The merged options of swoosh.js for `{swooshInternalLinks: true, baseUrl: null}`. */
  lemma SwooshNullBaseUrlMerged(options: Value)
    requires options == Obj(map["swooshInternalLinks" := Bool(true), "baseUrl" := Null])
    ensures Extend(SwooshDefaults, options).Extended?
    ensures Get(Extend(SwooshDefaults, options).value, "baseUrl") == EmptyObject
    ensures Get(Extend(SwooshDefaults, options).value, "linkSelector") == Str("#nav a")
    ensures Get(Extend(SwooshDefaults, options).value, "swooshInternalLinks") == Bool(true)
  {
    SwooshDefaultValues();
    NullBaseUrlMerged(SwooshDefaults, options);
  }

  /** `_extend` turns an explicit `baseUrl: null` into `{}`, which is truthy:
      swoosh.js then accepts automatic internal links without a base URL, and
      its selector looks for `[object Object]` in the `href`. */
  lemma SwooshNullBaseUrlAccepted(env: HistoryEnv, options: Value)
    requires env.history && env.adapter
    requires options == Obj(map["swooshInternalLinks" := Bool(true), "baseUrl" := Null])
    ensures InitSwoosh(env, options).Initialised?
    ensures Get(InitSwoosh(env, options).options, "linkSelector") == Str("#nav a, a[href*=\"[object Object]\"]")
  {
    SwooshNullBaseUrlMerged(options);
    ObjectBaseUrlAccepted(env, options);
  }

  /** Whatever the options, a merge that leaves the default selector,
      internal links on and `{}` as base URL is accepted with the
      `[object Object]` selector. */
  lemma ObjectBaseUrlAccepted(env: HistoryEnv, options: Value)
    requires env.history && env.adapter
    requires Extend(SwooshDefaults, options).Extended?
    requires Get(Extend(SwooshDefaults, options).value, "baseUrl") == EmptyObject
    requires Get(Extend(SwooshDefaults, options).value, "linkSelector") == Str("#nav a")
    requires Get(Extend(SwooshDefaults, options).value, "swooshInternalLinks") == Bool(true)
    ensures InitSwoosh(env, options).Initialised?
    ensures Get(InitSwoosh(env, options).options, "linkSelector") == Str("#nav a, a[href*=\"[object Object]\"]")
  {
    ObjectBaseUrlSelector();
  }

  /** The default selector extended with an object as base URL. */
  lemma ObjectBaseUrlSelector()
    ensures InternalLinkSelector(Str("#nav a"), EmptyObject) == "#nav a, a[href*=\"[object Object]\"]"
  {
  }

  /** A nested option under a key whose default is a truthy string, such as
      `{linkSelector: {a: {b: 1}}}`, makes the merge throw, so swoosh.js
      `init` throws a `TypeError` before any of its checks. */
  lemma SwooshNestedOptionThrows(env: HistoryEnv, key: string, inner: string, nested: Value)
    requires Get(SwooshDefaults, key).Str? && Get(SwooshDefaults, key).s != ""
    requires HasKeys(nested)
    ensures InitSwoosh(env, Obj(map[key := Obj(map[inner := nested])])) == ThrewTypeError
  {
    NestedOverPrimitiveThrows(SwooshDefaults, key, inner, nested);
  }
}

=== FILE: scenarios.dfy ===
/** Whole navigations, from the click to the replaced content, in both
    versions of the library. History.js sits between the push and the state
    change; the scenarios take the state it delivers to be the pushed one. */
module Scenarios {
  import opened Wrappers
  import opened JsValues
  import opened Dom
  import opened Events
  import opened Options
  import opened ClassTokens
  import opened Clicks
  import Navigator
  import JQueryNavigator

  /** The state History.js delivers with `statechange` after a push: the
      pushed data and title, and the pushed URL, or the current one when the
      push gave none. */
  function Delivered(p: Push, currentUrl: string): HistoryState
  {
    HistoryState(p.data, p.title, if p.url.Some? then p.url.value else currentUrl)
  }

  /** The fetched page of the example: `<title>About Us</title>` and
      `<div id="content" data-page="about">X</div>`. */
  const AboutContent: Element := Element(map["id" := Attr("content", true), "data-page" := Attr("about", true)], "X")
  const AboutPage: Page := Page("About Us", Some(AboutContent))

  /** A click on `<a href="/about" data-title="About">` in the navigation
      pushes `/about` with the temporary title "About", asking for a fetch. */
  lemma AboutLinkPushes(settings: Settings, link: Element, documentTitle: string, matches: (Element, string) -> bool)
    requires settings.tempTitleFromAttr == Str("data-title")
    requires link.attributes == map["href" := Attr("/about", true), "data-title" := Attr("About", true)]
    requires matches(link, settings.linkSelector)
    ensures var r := Click(settings, Some(link), false, documentTitle, matches);
      && r.Pushed?
      && r.push.url == Some("/about")
      && r.push.title == "About"
      && r.push.data.shouldFetchContent
      && r.push.data.linkAttr == Some(map["href" := "/about", "data-title" := "About"])
  {
    assert ClassName(link) == "";
    assert Split("") == [""];
    assert SpecifiedAttributes(link) == map["href" := "/about", "data-title" := "About"];
  }

  /** The response of the example, delivered to the request in flight,
      replaces the content and takes the page's title. */
  lemma AboutResponse(settings: Settings, t: Navigator.Nav, id: nat)
    requires settings.autoreplace
    requires id in t.live && t.xhr.Some?
    ensures var r := Navigator.Step(settings, t, Navigator.ReadyStateChange(id, 4, Some(AboutPage)));
      && r.next.title == "About Us"
      && r.next.content.innerHtml == "X"
      && GetAttribute(r.next.content, "data-page") == Some("about")
      && !r.next.busy && r.next.xhr.None?
      && r.signals == [DidFetch(Some(AboutContent), Some("About Us")),
                       DidReplace(Some(AboutContent), Some("About Us"))]
  {
    ReplacedAttributes(AboutContent, t.content, "data-page");
  }

  /** swoosh.js without fading: the pushed state is fetched, and the
      response sets the title to "About Us", the content to "X" and its
      `data-page` to "about", and clears the busy mark. */
  lemma AboutNavigation(settings: Settings, s: Navigator.Nav, data: StateData)
    requires settings.autoreplace && data.shouldFetchContent
    ensures var state := HistoryState(data, "About", "/about");
      var r := Navigator.Run(settings, s, [Navigator.StateChange(state),
                                           Navigator.ReadyStateChange(s.nextId, 4, Some(AboutPage))]);
      && r.next.title == "About Us"
      && r.next.content.innerHtml == "X"
      && GetAttribute(r.next.content, "data-page") == Some("about")
      && !r.next.busy && r.next.xhr.None?
      && r.signals == [StateChanged(state), WillFetch("/about"),
                       DidFetch(Some(AboutContent), Some("About Us")),
                       DidReplace(Some(AboutContent), Some("About Us"))]
  {
    var state := HistoryState(data, "About", "/about");
    var e0 := Navigator.StateChange(state);
    var e1 := Navigator.ReadyStateChange(s.nextId, 4, Some(AboutPage));
    var a := Navigator.Step(settings, s, e0);
    assert a.signals == [StateChanged(state), WillFetch("/about")];
    AboutResponse(settings, a.next, s.nextId);
    Navigator.RunTwo(settings, s, e0, e1);
  }

  /** swoosh.js from the click to the new page: the click on the About link
      pushes a state, and the state change it causes, followed by the
      response to the request it issues, shows the About page. */
  lemma AboutClickNavigation(settings: Settings, s: Navigator.Nav, link: Element, documentTitle: string,
                             currentUrl: string, matches: (Element, string) -> bool)
    requires settings.autoreplace
    requires settings.tempTitleFromAttr == Str("data-title")
    requires link.attributes == map["href" := Attr("/about", true), "data-title" := Attr("About", true)]
    requires matches(link, settings.linkSelector)
    ensures var c := Click(settings, Some(link), false, documentTitle, matches);
      && c.Pushed?
      && var state := Delivered(c.push, currentUrl);
         var r := Navigator.Run(settings, s, [Navigator.StateChange(state),
                                              Navigator.ReadyStateChange(s.nextId, 4, Some(AboutPage))]);
         && r.next.title == "About Us"
         && r.next.content.innerHtml == "X"
         && GetAttribute(r.next.content, "data-page") == Some("about")
         && !r.next.busy && r.next.xhr.None?
         && r.signals == [StateChanged(state), WillFetch("/about"),
                          DidFetch(Some(AboutContent), Some("About Us")),
                          DidReplace(Some(AboutContent), Some("About Us"))]
  {
    AboutLinkPushes(settings, link, documentTitle, matches);
    var c := Click(settings, Some(link), false, documentTitle, matches);
    assert Delivered(c.push, currentUrl) == HistoryState(c.push.data, "About", "/about");
    AboutNavigation(settings, s, c.push.data);
  }

  /** The first half of a fading navigation: the state change starts the
      fade-out, and its end marks the content faded out and fetches. */
  lemma FadeOutThenFetch(settings: Settings, s: JQueryNavigator.JqNav, state: HistoryState)
    requires JQueryNavigator.FadeMode(settings)
    requires s.live == {} && state.data.shouldFetchContent
    ensures var r := JQueryNavigator.Run(settings, s, [JQueryNavigator.StateChange(state), JQueryNavigator.FadeOutDone]);
      && r.signals == [StateChanged(state), DidFadeOut, WillFetch(state.url)]
      && r.next == s.(jqxhr := Some(Request(s.nextId, state.url)), live := {s.nextId}, nextId := s.nextId + 1,
                      busy := true, switching := JQueryNavigator.Switching(JQueryNavigator.Empty, true, false),
                      anim := JQueryNavigator.Still)
  {
    var e0 := JQueryNavigator.StateChange(state);
    var e1 := JQueryNavigator.FadeOutDone;
    var a := JQueryNavigator.Step(settings, s, e0);
    JQueryNavigator.RunCons(settings, a.next, e1, []);
    JQueryNavigator.RunCons(settings, s, e0, [e1]);
    assert [e1] == [e1] + [];
    assert [e0, e1] == [e0] + [e1];
  }

  /** The second half: the response is swapped in at once because the
      content is already faded out, the timer announces the replacement and
      starts the fade-in, whose end clears the faded-out mark. */
  lemma SwapThenFadeIn(settings: Settings, b: JQueryNavigator.JqNav, id: nat, title: string, el: Element)
    requires JQueryNavigator.FadeMode(settings)
    requires b.live == {id} && b.fadeInTimers == 0
    requires b.switching == JQueryNavigator.Switching(JQueryNavigator.Empty, true, false)
    ensures var r := JQueryNavigator.Run(settings, b,
        [JQueryNavigator.FetchSuccess(id, Page(title, Some(el))), JQueryNavigator.FadeInTimer, JQueryNavigator.FadeInDone]);
      && r.signals == [DidFetch(Some(el), GetAttribute(el, settings.pageNameAttr)),
                       DidReplace(Some(el), GetAttribute(el, "data-page")),
                       DidFadeIn]
      && r.next == b.(jqxhr := None, live := {}, busy := false, title := title,
                      content := Replaced(el, b.content), switching := JQueryNavigator.Reset,
                      anim := JQueryNavigator.Still)
  {
    var e2 := JQueryNavigator.FetchSuccess(id, Page(title, Some(el)));
    var e3 := JQueryNavigator.FadeInTimer;
    var e4 := JQueryNavigator.FadeInDone;
    var c := JQueryNavigator.Step(settings, b, e2);
    var d := JQueryNavigator.Step(settings, c.next, e3);
    JQueryNavigator.RunCons(settings, d.next, e4, []);
    JQueryNavigator.RunCons(settings, c.next, e3, [e4]);
    JQueryNavigator.RunCons(settings, b, e2, [e3, e4]);
    assert [e4] == [e4] + [];
    assert [e3, e4] == [e3] + [e4];
    assert [e2, e3, e4] == [e2] + [e3, e4];
  }

  /** jquery.swoosh.js with fading, from a page with no request in flight:
      the state change starts the fade-out, its end starts the fetch, the
      response is swapped in while faded out, the timer starts the fade-in
      and announces the replacement, and the end of the fade-in leaves the
      switching state as a navigation finds it. */
  lemma FadingNavigation(settings: Settings, s: JQueryNavigator.JqNav, state: HistoryState, title: string, el: Element)
    requires JQueryNavigator.FadeMode(settings)
    requires s.fadeInTimers == 0 && s.live == {}
    requires state.data.shouldFetchContent
    ensures var r := JQueryNavigator.Run(settings, s,
        [JQueryNavigator.StateChange(state), JQueryNavigator.FadeOutDone] +
        [JQueryNavigator.FetchSuccess(s.nextId, Page(title, Some(el))),
         JQueryNavigator.FadeInTimer, JQueryNavigator.FadeInDone]);
      && r.next.content == Replaced(el, s.content)
      && r.next.title == title
      && r.next.switching == JQueryNavigator.Reset
      && r.next.anim == JQueryNavigator.Still
      && r.next.jqxhr.None? && r.next.live == {} && !r.next.busy
      && r.next.fadeInTimers == 0
      && r.signals == [StateChanged(state), DidFadeOut, WillFetch(state.url),
                       DidFetch(Some(el), GetAttribute(el, settings.pageNameAttr)),
                       DidReplace(Some(el), GetAttribute(el, "data-page")),
                       DidFadeIn]
  {
    var xs := [JQueryNavigator.StateChange(state), JQueryNavigator.FadeOutDone];
    var ys := [JQueryNavigator.FetchSuccess(s.nextId, Page(title, Some(el))),
               JQueryNavigator.FadeInTimer, JQueryNavigator.FadeInDone];
    FadeOutThenFetch(settings, s, state);
    var first := JQueryNavigator.Run(settings, s, xs);
    SwapThenFadeIn(settings, first.next, s.nextId, title, el);
    var second := JQueryNavigator.Run(settings, first.next, ys);
    JQueryNavigator.RunAppend(settings, s, xs, ys);
  }

  /** jquery.swoosh.js with fading, from the click to the faded-in page: a
      click inside a matching link pushes the link's `href`, and the state
      change it causes runs the whole fading navigation for that URL. */
  lemma FadingClickNavigation(settings: Settings, s: JQueryNavigator.JqNav, link: Element, url: string,
                              documentTitle: string, currentUrl: string, title: string, el: Element)
    requires JQueryNavigator.FadeMode(settings)
    requires s.fadeInTimers == 0 && s.live == {}
    requires GetAttribute(link, "href") == Some(url)
    ensures var c := ClickJQuery(settings, Some(link), link, false, documentTitle);
      && c.Pushed? && c.push.url == Some(url)
      && var state := Delivered(c.push, currentUrl);
         var r := JQueryNavigator.Run(settings, s,
           [JQueryNavigator.StateChange(state), JQueryNavigator.FadeOutDone] +
           [JQueryNavigator.FetchSuccess(s.nextId, Page(title, Some(el))),
            JQueryNavigator.FadeInTimer, JQueryNavigator.FadeInDone]);
         && r.next.content == Replaced(el, s.content)
         && r.next.title == title
         && r.next.jqxhr.None? && r.next.live == {} && !r.next.busy
         && r.signals == [StateChanged(state), DidFadeOut, WillFetch(url),
                          DidFetch(Some(el), GetAttribute(el, settings.pageNameAttr)),
                          DidReplace(Some(el), GetAttribute(el, "data-page")),
                          DidFadeIn]
  {
    var c := ClickJQuery(settings, Some(link), link, false, documentTitle);
    FadingNavigation(settings, s, Delivered(c.push, currentUrl), title, el);
  }
}

=== FILE: wrappers.dfy ===
/** The optional-value type used wherever the JavaScript source has `null`
    or `undefined` standing for "absent". */
module Wrappers {

  datatype Option<+T> = None | Some(value: T) {

    /** The wrapped value, or `default` when absent. */
    function GetOr(default: T): T
    {
      match this
      case Some(v) => v
      case None => default
    }
  }
}
